=== FILE: README.md ===
# Self-swabbing extension: a Dafny model of its core

This project models the core of the self-swabbing extension service of the
Infectieradar study platform. The service is written in Go.

It models five parts of the service:

- **Sampler.** The weekly slot curve: a step function of open slots over the
  week. It covers how the curve is looked up, how free slots are decided, and
  how the curve is built from sample data (`InitFromSampleCSV`).
- **Entry-code check.** The entry-code store and the check endpoint with its
  per-uid limit on wrong attempts.
- **Code helpers.** `SanitizeCode`, `randomCodeToString` and
  `generateRandomCode`, plus the request guards: the referer allow-list, the
  role check and the bearer-token extraction.
- **Survey lookups.** `FindSurveyItemResponse` and `FindResponseSlot` over a
  submitted survey response.
- **Control stores and handlers.** The control-contact and control-code
  collections of the two studies (igasonderzoek and streptokids), and the
  handlers built on them: checking and consuming an access code, and sending
  invitations.

## How the model is built

- MongoDB collections become sequences of records in insertion order:
  - `FindOne`, `UpdateOne` and `DeleteOne` act on the first matching record;
  - `DeleteMany` keeps the records that do not match and reports how many went;
  - sorting is a stable insertion sort on the key, latest first.
- A unique index becomes a predicate over the sequence:
  - a `code` field marked `omitempty` is indexed as "missing" when it is empty, so at most one record may have no code;
  - a filter `{code: ""}` never matches such a record (`Collections.IndexedString`, `Collections.FieldEquals`).
- The clock is a `now` parameter. Random draws are sequence parameters. Whether an e-mail was composed and sent is a boolean parameter.
- The package-level counters of the entry-code check become a state value that each check takes and returns.
- Week arithmetic is done in UTC seconds (`Calendar`):
  - the Monday-based week index is proved;
  - Go's ISO-week labelling is an abstract function, constrained to agree with that week index (`Calendar.IsIsoWeekLabelling`).

Behaviour of the source worth noting:

- **Malformed input to `InitFromSampleCSV`.** The source panics on a target below the minimum, and on fewer than two data rows when the target is above the minimum. With the target equal to the minimum, `rand.Intn` is never called, and any number of data rows gives the one-step curve. The model returns the two panics as errors: `NegativeSampleCount` and `TooFewDataRows`.
- **Failed used-slot count.** A failing count is read as 0 used slots, so the sampler fails open.
- **Lookup before the first step.** A lookup before the first step returns the first step's value, not 0.

## Model

| member | source | states |
|---|---|---|
| Sampler.OpenSlotTargetNow | pkg/sampler/sampler.go:24-41 | 0 for a curve without steps; the first step's value while even the first step is not due; otherwise the value of a due step |
| Sampler.ScanStop | pkg/sampler/sampler.go:30-38 | once the first step is due, the scan stops at a step that is due and whose successor (if any) is not, and returns that step's value |
| Sampler.TargetIsLastDueStep | pkg/sampler/sampler.go:30-38 | on a curve with strictly increasing offsets, the target is the value of the last step whose offset has elapsed |
| Sampler.TargetBeforeFirstStep | pkg/sampler/sampler.go:30-38 | before the first step is due, the target is already the first step's value |
| Sampler.ExampleCurveFirstHour | pkg/sampler/sampler.go:30-38 | on the curve 5 at 0 s, 8 at 3600 s, 10 at 7200 s, the target is 5 during the first hour |
| Sampler.ExampleCurveLater | pkg/sampler/sampler.go:30-38 | on the same curve the target is 8 at 3600 s and 10 at 10000 s |
| Sampler.HasAvailableFreeSlots | pkg/sampler/sampler.go:52-58 | free exactly when the used count is below the current target; with a failing count, exactly when the target is positive |
| Sampler.EmptyCurveOffersNothing | pkg/sampler/sampler.go:24-28 | a curve without steps never offers a slot |
| Sampler.StoreFailureFailsOpen | pkg/sampler/sampler.go:43-58 | a failing count gives the same answer as a count of 0 |
| Sampler.MoreUsedNeverFrees | pkg/sampler/sampler.go:52-58 | free slots are monotone: a higher used count never turns "no" into "yes" |
| Sampler.LoadDecidesLaterAnswers | pkg/sampler/sampler.go:52-67 | after a successful load the free-slot answer and the staleness are those of the loaded curve, whatever curve was held before; after a failed load every answer is unchanged |
| Sampler.NeedsRefreshIffOtherWeek | pkg/sampler/sampler.go:114-121 | under an ISO labelling, stale exactly when the two instants fall in different Monday-based weeks |
| Sampler.CurveLastsOneWeek | pkg/sampler/sampler.go:114-131 | a curve built at any moment is fresh until seven days after that week's Monday, and stale from then on |
| Calendar.StepBackWithinWeek | pkg/sampler/sampler.go:127-129 | stepping back one day from a day other than Monday stays in the same week, one day closer to Monday |
| Calendar.WalkBackToMonday | pkg/sampler/sampler.go:127-129 | the walk back ends on the Monday of the same week, as many days back as the weekday's distance from Monday |
| Calendar.StartOfTheWeek | pkg/sampler/sampler.go:123-131 | a midnight, on a Monday, in the same week as now, at most seven days before now |
| Calendar.WeekLaterIsNewWeek | pkg/sampler/sampler.go:114-131 | seven days or more after a Monday midnight lies in a later week |
| CurveBuilder.WrapInt64 | pkg/sampler/sampler.go:89 | the 64-bit wrap-around of Go's `int`: in range, congruent modulo 2^64, and the identity on values already in range |
| CurveBuilder.SampleAt | pkg/sampler/sampler.go:84-89 | the drawn row's second column parsed and turned from minutes into seconds (with wrap-around); a missing column or bad number is an error |
| CurveBuilder.SampleIsMinutesInSeconds | pkg/sampler/sampler.go:85-89 | a row with value m and no overflow gives exactly m * 60 |
| CurveBuilder.DrawSamples | pkg/sampler/sampler.go:81-90 | one sample per draw, each the row its draw selects; on failure, the error is that of the first bad draw |
| CurveBuilder.LaterFailureShifts | pkg/sampler/sampler.go:83-88 | a first bad draw in the tail is the first bad draw of the whole sequence when the head is good |
| CurveBuilder.SamplesShift | pkg/sampler/sampler.go:83-90 | a good head followed by good tail samples gives good samples for every draw |
| CurveBuilder.LastRowNeverDrawnSamples | pkg/sampler/sampler.go:84 | the draw is taken over all data rows but the last, so replacing the last row changes no sample |
| CurveBuilder.LastRowNeverDrawn | pkg/sampler/sampler.go:77-112 | the whole build ignores the last data row |
| CurveBuilder.AddSample | pkg/sampler/sampler.go:97-106 | a sample at the last offset raises the last step by one; any other sample appends a step one higher at that offset |
| CurveBuilder.AddSampleKeeps | pkg/sampler/sampler.go:97-106 | every step before the last is kept |
| CurveBuilder.AddSampleRaises | pkg/sampler/sampler.go:97-106 | the first offset is kept, the first value never drops, and strictly increasing values stay strictly increasing |
| CurveBuilder.Coalesce | pkg/sampler/sampler.go:97-106 | at most one step per sample, the last value raised by the number of samples, increasing values kept |
| CurveBuilder.BuildSteps | pkg/sampler/sampler.go:93-106 | a curve that starts at offset 0 with at least the minimum, ends at minimum plus number of samples, with strictly increasing values |
| CurveBuilder.BuildCurve | pkg/sampler/sampler.go:91-106 | the same, for the samples after sorting |
| CurveBuilder.WithCurveFrom | pkg/sampler/sampler.go:108-111 | the sampler keeps its instance, starts at this week's Monday midnight and holds the built curve |
| CurveBuilder.InitFromSampleCSV | pkg/sampler/sampler.go:76-112 | the error cases (no header row, target below minimum, too few data rows, bad value), and on success a curve from offset 0 to exactly the target, starting this week |
| CurveBuilder.CountAtMostIsFilter | pkg/sampler/sampler.go:91-106 | the number of samples due by an offset equals the size of the filtered samples |
| CurveBuilder.CountAtMostPermutation | pkg/sampler/sampler.go:91 | sorting does not change how many samples are due by any offset |
| CurveBuilder.CoalesceCurveOf | pkg/sampler/sampler.go:97-106 | coalescing ascending samples keeps the step-function invariant: each step's value is the minimum plus the samples due by its offset |
| CurveBuilder.BuildStepsLookup | pkg/sampler/sampler.go:93-106 | for ascending samples, the target at any elapsed time is the minimum plus the number of samples due by then |
| CurveBuilder.BuildCurveCounts | pkg/sampler/sampler.go:91-111 | for any samples, the built curve's target at elapsed time e is the minimum plus the number of samples at most e |
| CurveBuilder.BuildCurveIsStepFunction | pkg/sampler/sampler.go:91-106 | the built curve has strictly increasing offsets and values |
| CurveBuilder.FullTargetOnceAllDue | pkg/sampler/sampler.go:91-106 | once every sample is due, the target is the minimum plus the number of samples |
| CurveBuilder.ZeroSamplesRaiseFirstStep | pkg/sampler/sampler.go:97-100 | samples at offset 0 raise the initial step instead of adding steps |
| Decimal.NatToString | pkg/http/handlers/igasonderzoek.go:432 | Go's `%d` of a natural number: non-empty digits without a leading zero |
| Decimal.DigitsValueOfNatToString | pkg/http/handlers/igasonderzoek.go:432 | the rendered digits read back as the number |
| Decimal.NatToStringLength | pkg/http/handlers/igasonderzoek.go:432-433 | the rendering has at most k digits exactly when the number is below 10^k |
| Decimal.IntToString | pkg/http/handlers/igasonderzoek.go:432 | `%d` of any integer: digits, with a minus sign before negatives |
| Decimal.Atoi | pkg/sampler/sampler.go:85 | `strconv.Atoi`: an accepted value lies in the 64-bit range |
| Decimal.AtoiIntToString | pkg/sampler/sampler.go:85 | every 64-bit integer rendered with `%d` parses back to itself |
| Decimal.AtoiRejectsNonDigits | pkg/sampler/sampler.go:85-88 | a non-digit after the first character makes the parse fail |
| Strings.TrimPrefix | pkg/http/handlers/igasonderzoek.go:344 | the prefix is removed once when present, and the string is untouched otherwise |
| Strings.Utf8Length | pkg/http/handlers/code_checkers.go:73 | Go's `len` of a string: its UTF-8 byte count, between one and four bytes per character |
| Strings.Utf8LengthIsCountIffAscii | pkg/http/handlers/code_checkers.go:73 | the byte count equals the character count exactly when every character is ASCII |
| Strings.ContainsIffOccurs | pkg/utils/event-parse.go:13 | substring containment holds exactly when the substring occurs at some position |
| Strings.RemoveChar | pkg/http/handlers/utils.go:39-41 | the result lacks the character, is no longer, and keeps every other character |
| Strings.RemoveAbsentChar | pkg/http/handlers/utils.go:39-41 | removing a character that is absent changes nothing |
| Strings.RemoveCharAppend | pkg/http/handlers/utils.go:39-41 | removal distributes over concatenation |
| Strings.Split | pkg/utils/event-parse.go:21 | at least one piece, none containing the separator |
| Strings.JoinSplit | pkg/utils/event-parse.go:21-24 | joining the pieces of a split gives back the string |
| Strings.SplitJoin | pkg/utils/event-parse.go:21-24 | splitting a join of separator-free pieces gives back the pieces |
| Strings.SplitNoSeparator | pkg/utils/event-parse.go:21 | a string without the separator splits into itself |
| Strings.SplitAfterPiece | pkg/utils/event-parse.go:21-24 | a leading separator-free piece splits off as the first piece |
| Collections.Filter | pkg/db/igasonderzoek.go:215-228 | the records kept are exactly those of the store that pass the filter |
| Collections.FilterMultiset | pkg/db/igasonderzoek.go:215-228 | each record is kept exactly as often as it occurs, if it passes, and never otherwise |
| Collections.FilterSplitCount | pkg/db/igasonderzoek.go:215-228 | the kept and the deleted records together account for the whole store |
| Collections.InsertBy | pkg/db/igasonderzoek.go:105-109 | insertion keeps the order sorted by key and adds exactly the one element |
| Collections.SortBy | pkg/db/igasonderzoek.go:105-109 | the result is sorted by key and is a permutation of the input |
| Collections.FirstIndex | pkg/db/code-checker.go:54-58 | the first position whose element passes; none exactly when no element passes |
| Collections.FirstIndexOf | pkg/db/code-checker.go:54-58 | a passing position with no passing predecessor is the one found |
| Collections.IndexedKeyOnlyAt | pkg/db/code-checker.go:18-25 | under a unique index on an `omitempty` string field, a record with a non-empty value is the only one holding it (also pkg/db/igasonderzoek.go:60-70) |
| CodeFormat.StripAppend | pkg/http/handlers/utils.go:38-43 | stripping separators distributes over concatenation |
| CodeFormat.StripLeavesNoSeparator | pkg/http/handlers/utils.go:38-43 | no space, underscore or hyphen survives, and the code does not grow |
| CodeFormat.StripWithoutSeparators | pkg/http/handlers/utils.go:38-43 | a code without separators is left as is |
| CodeFormat.SanitizeCode | pkg/http/handlers/utils.go:38-43 | the three successive removals equal a single pass that drops every separator |
| CodeFormat.SanitizeStep | pkg/http/handlers/utils.go:39-41 | removing spaces, then underscores, then hyphens is the single-pass strip |
| CodeFormat.SanitizeCodeProperties | pkg/http/handlers/utils.go:38-43 | the result has no separators, is no longer than the input, and sanitising is idempotent |
| CodeFormat.SanitizeCodeKeepsCleanCode | pkg/http/handlers/utils.go:38-43 | a code without separators passes unchanged |
| CodeFormat.SanitizeCodeAppend | pkg/http/handlers/utils.go:38-43 | sanitising distributes over concatenation |
| CodeFormat.RandomCodeToString | pkg/http/handlers/igasonderzoek.go:431-438 | plain `%d` unless pretty and at least twelve characters; then groups of four, four and the rest, joined by hyphens (same as pkg/http/handlers/streptokids.go:356-363) |
| CodeFormat.StripHyphenTail | pkg/http/handlers/igasonderzoek.go:437 | stripping a hyphen-joined tail keeps the tail |
| CodeFormat.StripHyphenated | pkg/http/handlers/igasonderzoek.go:437 | stripping a hyphenated triple of clean parts gives their concatenation |
| CodeFormat.PrettyCodeRoundTrip | pkg/http/handlers/igasonderzoek.go:431-438 | sanitising the pretty code of a non-negative value gives the plain code, so an e-mailed code is accepted as stored |
| CodeFormat.NegativeCodeLosesSign | pkg/http/handlers/igasonderzoek.go:431-438 | the round trip needs a non-negative value: for -5 the two forms differ |
| CodeFormat.GenerateRandomCode | pkg/http/handlers/igasonderzoek.go:426-429 | the draw is returned as is, in [0, 899999999999) (same as pkg/http/handlers/streptokids.go:351-354) |
| CodeFormat.GeneratedCodeMayBeShort | pkg/http/handlers/igasonderzoek.go:426-438 | the draw 7 gives the one-digit code "7", which is never hyphenated |
| CodeFormat.GeneratedCodeShortBelow | pkg/http/handlers/igasonderzoek.go:426-438 | every draw below 10^11 gives a code shorter than twelve digits |
| CodeFormat.GenerateTwelveDigitCode | pkg/http/handlers/igasonderzoek.go:426-429 | the corrected generator: offset by 10^11, always twelve digits |
| CodeFormat.TwelveDigitCodeIsAlwaysHyphenated | pkg/http/handlers/igasonderzoek.go:189-194 | corrected codes are twelve digits plain and fourteen characters pretty, with hyphens at positions 4 and 9 |
| RequestGuards.AnyPrefixOf | pkg/http/handlers/igasonderzoek.go:328-333 | true exactly when some allowed entry is a prefix of the referer |
| RequestGuards.HasAllowedReferer | pkg/http/handlers/igasonderzoek.go:325-334 | allowed exactly when some comma-separated entry of the allow-list is a prefix of the referer |
| RequestGuards.EmptyAllowListAcceptsAll | pkg/http/handlers/igasonderzoek.go:325-334 | an unset allow-list splits into one empty entry, which every referer starts with |
| RequestGuards.AllowListOfEntries | pkg/http/handlers/igasonderzoek.go:325-334 | for an allow-list joined from comma-free entries, allowed exactly when one of those entries is a prefix |
| RequestGuards.AnyRoleMatches | pkg/http/handlers/igasonderzoek.go:389-397 | true exactly when some role equals some target role |
| RequestGuards.HasRole | pkg/http/handlers/igasonderzoek.go:383-403 | passes exactly when the token has a roles claim and one of its comma-separated entries equals a target role |
| RequestGuards.RolesClaimOfNames | pkg/http/handlers/igasonderzoek.go:387-397 | for a claim joined from comma-free names, passes exactly when one of those names is a target |
| RequestGuards.PaddedRoleDoesNotMatch | pkg/http/handlers/igasonderzoek.go:388-391 | entries are not trimmed: "USER, ADMIN" does not grant ADMIN |
| RequestGuards.ListedRoleMatches | pkg/http/handlers/igasonderzoek.go:388-391 | "USER,ADMIN" grants ADMIN |
| RequestGuards.ExtractToken | pkg/http/handlers/igasonderzoek.go:336-359 | a token exactly when the header has a first Authorization value that is non-empty after removing one "Bearer " prefix, and that remainder is the token |
| RequestGuards.ExtractTokenStripsOnce | pkg/http/handlers/igasonderzoek.go:344 | "Bearer Bearer x" gives "Bearer x" |
| EventParse.FindSurveyItemResponse | pkg/utils/event-parse.go:11-18 | a response from the list whose key contains the item key; not found exactly when no key contains it |
| EventParse.FindSurveyItemResponseIsFirst | pkg/utils/event-parse.go:11-18 | the response found is the first one in list order that matches |
| EventParse.SubstringMatchTakesEarlierItem | pkg/utils/event-parse.go:13 | looking up "Q1" returns an earlier "T.Q10" rather than "T.Q1" |
| EventParse.RestOfKey | pkg/utils/event-parse.go:24 | the key handed to the recursive call is shorter and splits into the remaining segments |
| EventParse.SingleSegment | pkg/utils/event-parse.go:21-22 | a key without a dot is its own single segment |
| EventParse.FindResponseSlot | pkg/utils/event-parse.go:20-37 | a one-segment key matches only the root itself; a longer key searches the children with the rest of the key; what is found carries the last segment |
| EventParse.FindSlotPath | pkg/utils/event-parse.go:21-36 | one segment compares the root's key; several skip the root and search its children |
| EventParse.FindInItems | pkg/utils/event-parse.go:23-28 | the children are tried in order; a result carries the last segment |
| EventParse.FirstWithKey | pkg/utils/event-parse.go:20-37 | the reference search: the first node in a list with the given key, and not found exactly when no node has it |
| EventParse.FirstWithKeyAppend | pkg/utils/event-parse.go:23-28 | searching a concatenation is searching the first part, then the second |
| EventParse.SlotPathIsFirstAtDepth | pkg/utils/event-parse.go:20-37 | for k segments, the search finds the first node, left to right, exactly k - 1 levels below the root with the last segment as key |
| EventParse.ItemsAreFirstAtDepth | pkg/utils/event-parse.go:23-28 | the same for a list of children, over the concatenation of their subtrees |
| EventParse.SlotIsFirstAtDepth | pkg/utils/event-parse.go:20-37 | `FindResponseSlot` equals the depth-based reference search for every key |
| EventParse.FirstSegmentNeverCompared | pkg/utils/event-parse.go:22-28 | for a key of several segments, the first segment never influences the result |
| EventParse.RootKeyIgnoredExample | pkg/utils/event-parse.go:22-28 | "rg.scg" is found under a root whose key is "other" |
| EntryCodes.AddEntryCode | pkg/db/code-checker.go:29-44 | a duplicate-key error exactly when the unique index already holds the code; otherwise the record uploaded now and unused is appended, the index stays satisfied, and a lookup of the non-empty code then returns that record |
| EntryCodes.FindEntryCodeInfo | pkg/db/code-checker.go:46-63 | a stored record with exactly that non-empty code; not found exactly when no record matches |
| EntryCodes.CodeOnlyAt | pkg/db/code-checker.go:18-25 | under the unique index a non-empty code is stored at one position only |
| EntryCodes.FindEntryCodeInfoIsTheRecord | pkg/db/code-checker.go:46-63 | under the unique index the lookup returns the record of that code |
| EntryCodes.EmptyCodeIsNeverFound | pkg/db/code-checker.go:50-52 | the empty code is never found, since the field is omitted when empty |
| EntryCodes.MarkEntryCodeAsUsed | pkg/db/code-checker.go:65-87 | sets the use time and user on an unused record of the code; "not modified" when none exists |
| EntryCodes.MarkFailsIffNoUnusedRecord | pkg/db/code-checker.go:69-85 | with a real clock, marking fails exactly when no unused record has the code |
| EntryCodes.MarkKeepsOthers | pkg/db/code-checker.go:75-79 | records of other codes are untouched, and the unique index still holds |
| EntryCodes.MarkTwiceFails | pkg/db/code-checker.go:69-85 | a code is used once: marking it again fails |
| EntryCodes.FindAfterMarkSeesUsed | pkg/db/code-checker.go:65-87 | after marking, the lookup shows who used the code and when, with the upload time kept |
| EntryCodes.UploadEntryCodes | pkg/http/handlers/code_checkers.go:56-66 | the counter counts saved codes: the store grows by exactly that many, the old records are kept, every appended record is an uploaded code stamped now and unused, every uploaded code is held afterwards, and uniqueness is preserved |
| EntryCodes.UploadOfFreshCodesSavesAll | pkg/http/handlers/code_checkers.go:56-66 | distinct, new, non-empty codes are all saved |
| EntryCodeCheck.Window | pkg/http/handlers/code_checkers.go:91-95 | the window in force always covers now; its counters are the previous ones or none, and never a counter the previous state lacked |
| EntryCodeCheck.WindowIsIdempotent | pkg/http/handlers/code_checkers.go:91-95 | taking the window twice at the same time gives the same state as once |
| EntryCodeCheck.CountWrongAttempt | pkg/http/handlers/code_checkers.go:107-111 | the uid's counter becomes 1 or one more; every other uid's counter is kept |
| EntryCodeCheck.ValidateEntryCode | pkg/http/handlers/code_checkers.go:69-131 | each answer with its exact condition, the uid's length counted in bytes: wrong id, empty code, too many attempts, code not found, code used, valid; which answers count a wrong attempt and which leave the counters alone |
| EntryCodeCheck.ValidIffUnusedCodeStored | pkg/http/handlers/code_checkers.go:97-130 | a well-formed request is valid exactly when the uid is not blocked and an unused record holds the normalised code |
| EntryCodeCheck.CheckKeepsCountsBounded | pkg/http/handlers/code_checkers.go:97-128 | every counter stays between 1 and one above the limit |
| EntryCodeCheck.BlockedUntilReset | pkg/http/handlers/code_checkers.go:97-103 | a blocked uid is refused, with no state change, until the window runs out |
| EntryCodeCheck.NewWindowUnblocks | pkg/http/handlers/code_checkers.go:91-103 | after the window runs out no uid is refused for earlier attempts |
| EntryCodeCheck.SpellingDoesNotMatter | pkg/http/handlers/code_checkers.go:87-89 | two spellings of one code that differ only in separators get the same answer and state |
| EntryCodeCheck.ValidCheckIsRepeatable | pkg/http/handlers/code_checkers.go:118-130 | checking a valid code does not consume it |
| EntryCodeCheck.WrongAttemptsAreCounted | pkg/http/handlers/code_checkers.go:105-116 | within one window, k checks of an unknown code leave the uid's counter at k |
| EntryCodeCheck.UnknownCodeCountsOne | pkg/http/handlers/code_checkers.go:105-116 | inside the window, an unblocked uid checking an unknown code gets exactly one more wrong attempt counted |
| EntryCodeCheck.TwelfthAttemptIsRefused | pkg/http/handlers/code_checkers.go:97-116 | the first eleven checks of an unknown code are looked up, and the twelfth is refused outright |
| EntryCodeCheck.UidLengthCountsBytes | pkg/http/handlers/code_checkers.go:72-78 | a 23-character uid whose first letter takes two bytes passes the length check |
| ControlContacts.AddControlContact | pkg/db/igasonderzoek.go:84-94 | refused exactly when the id is taken; otherwise the contact is appended under the new id, ids stay distinct object-id texts, and a lookup by the returned id finds the contact (same as pkg/db/streptokids.go:55-65) |
| ControlContacts.LatestFirst | pkg/db/igasonderzoek.go:105-109 | sorting by the negated submission time lists the latest first |
| ControlContacts.FetchControlContacts | pkg/db/igasonderzoek.go:96-136 | latest first; only contacts submitted after `since` and, unless asked otherwise, not yet invited; a permutation of exactly those (same as pkg/db/streptokids.go:67-107) |
| ControlContacts.FetchIsExact | pkg/db/igasonderzoek.go:100-103 | each contact occurs in the result exactly as often as it is stored, if it passes the filter, and never otherwise |
| ControlContacts.FindOneControlContact | pkg/db/igasonderzoek.go:138-157 | an id that is not 24 hex digits is an error; otherwise the stored contact whose id is the lower-case spelling of the given one, not found exactly when none has it |
| ControlContacts.MarkControlContactInvited | pkg/db/igasonderzoek.go:159-173 | only an invalid object id is an error; the contact with that id, in either case, gets `invitedAt = now`, every other record is kept, and an unknown id changes nothing |
| ControlContacts.FindAfterMarkSeesInvited | pkg/db/igasonderzoek.go:159-173 | after marking, the lookup returns the same contact with the invitation time set |
| ControlContacts.IdCaseIsIgnored | pkg/db/igasonderzoek.go:142-146 | looking up or marking by an id gives the same as by its lower-case spelling, as `ObjectIDFromHex` decodes both to one id (also 163-167) |
| ControlContacts.DeleteContactsBefore | pkg/db/igasonderzoek.go:211-219 | keeps the contacts submitted at or after the cut-off and counts the others |
| ControlContacts.DeleteContactsBeforeIsExact | pkg/db/igasonderzoek.go:215-217 | each contact survives exactly as often as it is stored, if it is recent enough, and never otherwise |
| ControlCodes.AddControlCode | pkg/db/igasonderzoek.go:175-190 | appends the code created now unless the unique index holds it already, and keeps the index satisfied |
| ControlCodes.AddTwiceFails | pkg/db/igasonderzoek.go:60-70 | the same code cannot be stored twice |
| ControlCodes.CodeOnlyAt | pkg/db/igasonderzoek.go:60-70 | under the unique index a non-empty control code is stored at one position only |
| ControlCodes.FindControlCode | pkg/db/igasonderzoek.go:192-209 | a stored record with that non-empty code; not found exactly when none matches |
| ControlCodes.FindAfterAdd | pkg/db/igasonderzoek.go:175-209 | a code just added is found with its creation time |
| ControlCodes.DeleteControlCodesBefore | pkg/db/igasonderzoek.go:221-229 | keeps the codes created at or after the cut-off and counts the others |
| ControlCodes.DeleteControlCodesBeforeIsExact | pkg/db/igasonderzoek.go:225-227 | each code survives exactly as often as it is stored, if it is recent enough, and never otherwise |
| ControlCodes.DeleteControlCode | pkg/db/igasonderzoek.go:231-239 | deletes one matching record and reports 1, or reports 0 and changes nothing when none matches |
| ControlCodes.DeletedCodeIsGone | pkg/db/igasonderzoek.go:231-239 | under the unique index a deleted code is no longer found and may be stored again |
| AccessCodes.CheckControlAccessCode | pkg/http/handlers/igasonderzoek.go:104-127 | an empty code is refused untouched; otherwise codes older than fourteen days are removed, and the code is accepted exactly when a recent enough record holds its sanitised form (same as pkg/http/handlers/streptokids.go:100-123) |
| AccessCodes.ExpiryKeepsFreshMatches | pkg/http/handlers/igasonderzoek.go:113-120 | after expiry a code matches exactly when a record created at or after the cut-off stores it |
| AccessCodes.InvitationCodeValidForTwoWeeks | pkg/http/handlers/igasonderzoek.go:104-127 | an e-mailed pretty code is accepted from its creation until fourteen days later, and unknown afterwards |
| AccessCodes.ControlAccessCodeUsed | pkg/http/handlers/igasonderzoek.go:129-145 | succeeds exactly for a non-empty code; keeps the store when no record holds the sanitised code, and otherwise removes exactly the first record holding it, keeping all others in order; under the unique index the code is then gone (same as pkg/http/handlers/streptokids.go:125-141) |
| AccessCodes.DeleteLeavesNoMatch | pkg/http/handlers/igasonderzoek.go:136-138 | under the unique index nothing matches a deleted code |
| AccessCodes.UsedCodeNoLongerAccepted | pkg/http/handlers/igasonderzoek.go:104-145 | a code reported as used is never accepted again |
| Invitations.InsertFrom | pkg/http/handlers/igasonderzoek.go:191-203 | from attempt i on, the first draw whose insert is accepted gives the code and is stored; when none is accepted, the last draw's code is used and nothing is stored |
| Invitations.IssueCodeAsWritten | pkg/http/handlers/igasonderzoek.go:189-203 | over exactly ten draws, the code used is one of them; it is appended when free and the store is unchanged when it was taken; when all ten are taken, it is the last draw's code |
| Invitations.AllCollisionsReuseTakenCode | pkg/http/handlers/igasonderzoek.go:189-203 | when every draw collides, the invitation carries a code already stored for someone else |
| Invitations.TenCollisionsExample | pkg/http/handlers/igasonderzoek.go:191-203 | with "7" stored and ten draws of 7, the code "7" is handed out again |
| Invitations.IssueCode | pkg/http/handlers/igasonderzoek.go:189-203 | the corrected retry loop over ten draws: a twelve-digit code from the first free draw, freshly appended; an error exactly when every draw is taken |
| Invitations.IssueCodeTakesFirstFreeDraw | pkg/http/handlers/igasonderzoek.go:191-202 | the first free draw decides the code, whatever the later draws |
| Invitations.IssuedCodeKeepsUnique | pkg/http/handlers/igasonderzoek.go:196-202 | issuing a code keeps the unique index satisfied |
| Invitations.InviteContact | pkg/http/handlers/streptokids.go:169-226 | an unknown contact and an already invited one are skipped with nothing changed; otherwise the retry loop runs, and the contact is invited exactly when the message goes out, with a drawn code (stored only if it was free) whose pretty form sanitises back to it, and marked at now; the contacts are then exactly the store's mark of that id, no contact with another id changes, only invitation times change and at most one code is stored |
| Invitations.AllCollisionsStillInvite | pkg/http/handlers/streptokids.go:181-226 | when all ten draws collide, a contact whose message goes out is still invited, with a code the store already holds, and nothing is stored |
| Invitations.NoSecondInvitation | pkg/http/handlers/streptokids.go:176-179 | a contact invited with a real clock is skipped on every later turn |
| Invitations.SendControlInvitations | pkg/http/handlers/streptokids.go:168-232 | with ten draws per id, the count never exceeds the number of messages that went out; only invitation times change; the code store keeps its records and grows by at most one per id |
| Invitations.RepeatedIdInvitedOnce | pkg/http/handlers/streptokids.go:168-227 | the same id listed twice is sent at most one invitation |
| Invitations.InviteContactIntended | pkg/http/handlers/streptokids.go:169-226 | the corrected turn: a found, uninvited contact is given up (nothing changed) exactly when every draw is taken, and invited exactly when a draw is free and the message goes out, with a fresh twelve-digit code and the store's mark of that id; an undelivered message still stores the issued code; no contact with another id changes |
| Invitations.IntendedInvitationKeepsCodesUnique | pkg/http/handlers/streptokids.go:181-195 | with the corrected loop the unique index on codes keeps holding |

## Left out

- HTTP plumbing is not modelled: gin routing, JSON binding, status codes and response bodies. The handlers' outcomes are datatypes instead.
- The random `time.Sleep` delays after a failed check are not modelled.
- Concurrent requests to the entry-code check are not modelled. The counters `wrongCodeChecksPerUID` and `lastReset` (pkg/http/handlers/code_checkers.go:23-26) are package globals without a lock, and gin runs handlers concurrently, so Go may lose increments or abort on concurrent map writes. The model threads one `LimiterState` through the requests in sequence, so `EntryCodeCheck.WrongAttemptsAreCounted`, `EntryCodeCheck.TwelfthAttemptIsRefused` and `EntryCodeCheck.BlockedUntilReset` hold for serialised requests only.
- The `randomDelayMax` constant is not modelled.
- The sampler's ledger stubs and the study-event submission handler are not modelled. They have no logic over the core's state.
- Reading the CSV file is left out. The parsed rows are a parameter.
- The random seed and `rand.Intn` are left out. The draws are a parameter, constrained to the documented range.
- The clock is left out. `time.Now()` is a `now` parameter.
- Time zones are not modelled. `getStartOfTheWeek` uses `time.Local`, and the model is UTC.
- Go's ISO-week computation is not modelled. `NeedsRefresh` takes it as a labelling function, assumed to agree with Monday-based weeks.
- gRPC is left out: token validation, e-mail sending and the user-management client. Whether the invitation e-mail was composed and sent is the `delivered` parameter.
- Template resolution (`ResolveTemplate`) and the e-mail content are left out.
- Invitations.SendControlInvitations: states bounds on the count and on the stores; it does not compute which ids were invited.
- The igasonderzoek child-index check is not modelled. It reads `contact.Children`, which does not exist in the registration type of this source snapshot. The invitation loop is therefore modelled on the streptokids handler, and the igasonderzoek handler shares it.
- The igasonderzoek handler calls `IgasonderzoekMarkControlContactInvited` with a reference and a code. The database function takes only the id. The model marks by id.
- The streptokids database file does not define `FindOne`, `Mark` or the control-code functions that its handler calls. The model uses the igasonderzoek definitions for both studies.
- A failure to mark a contact is only logged. In the model marking a found contact cannot fail.
- The handler counts an invitation before marking it. That order is not visible in the model.
- `RemoveExpiredRegistrations` is not modelled. It computes a cut-off one calendar year back. `DeleteContactsBefore` takes the cut-off as a parameter instead.
- Store failures are modelled only for two calls: the sampler's used-slot count and its curve load. Every other store call is total in the model, which has these consequences:
  - a failed `DeleteControlCodesBefore` is only logged by the handler, so the source would still accept an expired code; `AccessCodes.CheckControlAccessCode` always prunes first;
  - a failed index creation is only logged and leaves the collection without a unique index; `EntryCodes.AddEntryCode` and `ControlCodes.AddControlCode` always enforce uniqueness;
  - timeouts and connection errors of the other calls are not modelled.
- Object-id generation by the store is left out. `AddControlContact` takes the new id as a parameter, required to be an id's hex text (24 lower-case hex digits, as `ObjectID.Hex` writes it).
- Configuration loading, the instance-id middleware and the API-key check are not modelled.
- The file-writing handlers (registration export) are left out. They perform I/O and have no state logic.
- `FindResponseSlot` on a nil root pointer (a panic in Go) is not modelled. The root is always a value.
- Go's 64-bit `int` is modelled only for `value * 60` (`CurveBuilder.WrapInt64`). The other sampler arithmetic is unbounded and agrees with Go only while every intermediate value stays within the 64-bit range. The lines below name the members concerned.
- Sampler.HasAvailableFreeSlots: computes `openSlotsTarget - usedSlots` (pkg/sampler/sampler.go:55) without wrap-around. For a curve value of -2^63 and one used slot, Go wraps to 2^63-1 and answers free; the model answers not free.
- Sampler.OpenSlotTargetNow: computes `time.Now().Unix() - IntervalStart` (pkg/sampler/sampler.go:30) without wrap-around.
- CurveBuilder.AddSample: computes `Value += 1` and `lastSlotOpening.Value + 1` (pkg/sampler/sampler.go:100,103) without wrap-around at 2^63-1.
- CurveBuilder.InitFromSampleCSV: computes `n := target - minVal` (pkg/sampler/sampler.go:81) without wrap-around. For `target = 2^63-1` and `minVal = -1`, Go gets a negative `n` and `make` panics; the model asks for 2^63 draws.
- `CurveBuilder.InitFromSampleCSV` does not model `logger.Error.Fatal`. A bad value ends the process in Go; the model returns `InvalidValue`.

## Findings

| source | as written | input that shows it | evidently intended | confidence | as-written member | corrected member |
|---|---|---|---|---|---|---|
| pkg/http/handlers/igasonderzoek.go:426-429 (same in pkg/http/handlers/streptokids.go:351-354) | `generateRandomCode` returns `rand.Intn(999999999999 - 100000000000)` without adding the lower bound, so codes lie in [0, 899999999999) and may have fewer than twelve digits | the draw 7 gives code "7", which `randomCodeToString` leaves unhyphenated | the comment "generate 12 digit code" and the pretty format ask for `100000000000 + rand.Intn(...)`, a twelve-digit code | not executed | CodeFormat.GenerateRandomCode (CodeFormat.GeneratedCodeMayBeShort) | CodeFormat.GenerateTwelveDigitCode (CodeFormat.TwelveDigitCodeIsAlwaysHyphenated) |
| pkg/http/handlers/igasonderzoek.go:189-203 (same in pkg/http/handlers/streptokids.go:181-195) | after ten failed inserts the loop ends and the last code drawn, which is already stored for another contact, is still e-mailed, and the contact is counted and marked invited | store holding "7", ten draws of 7: the invitation carries "7" and nothing new is stored | give up on the contact when no insert succeeded | not executed | Invitations.IssueCodeAsWritten, used by Invitations.InviteContact (Invitations.AllCollisionsReuseTakenCode, Invitations.TenCollisionsExample, Invitations.AllCollisionsStillInvite) | Invitations.IssueCode, used by Invitations.InviteContactIntended (Invitations.IssueCodeTakesFirstFreeDraw, Invitations.IntendedInvitationKeepsCodesUnique) |

=== FILE: access_codes.dfy ===
/** The two public control-code endpoints of each study: `check-code`
    (expire codes older than two weeks, then look the code up) and
    `code-used` (delete the code). Both sanitise the code first and refuse
    an empty one; the delays they add on failure are not modelled. */
module AccessCodes {
  import opened Collections
  import opened Calendar
  import opened Decimal
  import opened CodeFormat
  import opened ControlCodes

  /** `maxCodeAge`: codes older than fourteen days are expired. */
  const MaxCodeAge: int := 14 * SecondsPerDay

  datatype AccessAnswer = InvalidCode | CodeAccepted | CodeUnknown

  /** `CheckControlAccessCode`: an empty code is refused untouched;
      otherwise every code created before `now - MaxCodeAge` is deleted and
      the sanitised code is looked up among the rest. */
  function CheckControlAccessCode(store: seq<ControlCode>, code: string, now: int): (r: (AccessAnswer, seq<ControlCode>))
    ensures code == "" ==> r == (InvalidCode, store)
    ensures code != "" ==> r.1 == Filter(store, (c: ControlCode) => c.createdAt >= now - MaxCodeAge)
    ensures r.0 == CodeAccepted <==>
              code != "" && exists i :: 0 <= i < |store| && FieldEquals(store[i].code, SanitizeCode(code)) &&
                                        store[i].createdAt >= now - MaxCodeAge
  {
    if code == "" then (InvalidCode, store)
    else
      var kept := DeleteControlCodesBefore(store, now - MaxCodeAge).0;
      var found := FindControlCode(kept, SanitizeCode(code));
      ExpiryKeepsFreshMatches(store, SanitizeCode(code), now - MaxCodeAge);
      if found.Ok? then (CodeAccepted, kept) else (CodeUnknown, kept)
  }

  /** A code matches after expiry exactly when a record created at or
      after the cut-off stores it. */
  lemma ExpiryKeepsFreshMatches(store: seq<ControlCode>, code: string, cut: int)
    ensures (exists j :: 0 <= j < |DeleteControlCodesBefore(store, cut).0| &&
                         FieldEquals(DeleteControlCodesBefore(store, cut).0[j].code, code)) <==>
            exists i :: 0 <= i < |store| && FieldEquals(store[i].code, code) && store[i].createdAt >= cut
  {
    var kept := DeleteControlCodesBefore(store, cut).0;
    if exists j :: 0 <= j < |kept| && FieldEquals(kept[j].code, code) {
      var j :| 0 <= j < |kept| && FieldEquals(kept[j].code, code);
      var i :| 0 <= i < |store| && store[i] == kept[j];
    }
    if exists i :: 0 <= i < |store| && FieldEquals(store[i].code, code) && store[i].createdAt >= cut {
      var i :| 0 <= i < |store| && FieldEquals(store[i].code, code) && store[i].createdAt >= cut;
      assert store[i] in kept;
    }
  }

  /** The pretty code of an invitation is accepted for fourteen days from
      the moment its plain form was stored, and refused afterwards. */
  lemma InvitationCodeValidForTwoWeeks(store: seq<ControlCode>, value: int, created: int, now: int)
    requires value >= 0 && UniqueCodes(store)
    requires AddControlCode(store, RandomCodeToString(value, false), created).Ok?
    ensures created <= now <= created + MaxCodeAge ==>
              CheckControlAccessCode(AddControlCode(store, RandomCodeToString(value, false), created).value,
                                     RandomCodeToString(value, true), now).0 == CodeAccepted
    ensures now > created + MaxCodeAge ==>
              CheckControlAccessCode(AddControlCode(store, RandomCodeToString(value, false), created).value,
                                     RandomCodeToString(value, true), now).0 == CodeUnknown
  {
    var plain, pretty := RandomCodeToString(value, false), RandomCodeToString(value, true);
    var added := AddControlCode(store, plain, created).value;
    PrettyCodeRoundTrip(value);
    assert plain != "";
    assert pretty != "";
    CodeOnlyAt(added, |store|);
  }

  /** `ControlAccessCodeUsed`: an empty code is refused; otherwise the
      sanitised code is deleted and the call reports success, whether or not
      a record was removed. */
  function ControlAccessCodeUsed(store: seq<ControlCode>, code: string): (r: (bool, seq<ControlCode>))
    ensures r.0 <==> code != ""
    ensures !r.0 ==> r.1 == store
    ensures |store| - 1 <= |r.1| <= |store|
    ensures (forall i :: 0 <= i < |store| ==> !FieldEquals(store[i].code, SanitizeCode(code))) ==> r.1 == store
    ensures r.0 && (exists i :: 0 <= i < |store| && FieldEquals(store[i].code, SanitizeCode(code))) ==>
              exists i :: 0 <= i < |store| && FieldEquals(store[i].code, SanitizeCode(code)) &&
                          (forall j :: 0 <= j < i ==> !FieldEquals(store[j].code, SanitizeCode(code))) &&
                          r.1 == store[..i] + store[i + 1..]
    ensures UniqueCodes(store) ==> FindControlCode(r.1, SanitizeCode(code)).Err?
  {
    if code == "" then (false, store)
    else
      DeleteLeavesNoMatch(store, SanitizeCode(code));
      (true, DeleteControlCode(store, SanitizeCode(code)).0)
  }

  /** After deleting a code under the unique index, no record matches it;
      an empty code never matches anyway. */
  lemma DeleteLeavesNoMatch(store: seq<ControlCode>, code: string)
    ensures UniqueCodes(store) ==> FindControlCode(DeleteControlCode(store, code).0, code).Err?
  {
    if code != "" && UniqueCodes(store) {
      DeletedCodeIsGone(store, code, 0);
    }
  }

  /** A code reported as used is no longer accepted, at any time. */
  lemma UsedCodeNoLongerAccepted(store: seq<ControlCode>, code: string, now: int)
    requires UniqueCodes(store) && code != ""
    ensures CheckControlAccessCode(ControlAccessCodeUsed(store, code).1, code, now).0 == CodeUnknown
  {
    var rest := ControlAccessCodeUsed(store, code).1;
    assert forall i :: 0 <= i < |rest| ==> !FieldEquals(rest[i].code, SanitizeCode(code));
  }
}

=== FILE: calendar.dfy ===
/** Calendar arithmetic behind `getStartOfTheWeek` and `NeedsRefresh`.
    Times are Unix seconds; days are counted from 1970-01-01 (a Thursday).
    The model works in a zone without daylight-saving shifts, so a day is
    always 86400 seconds and local midnight is a multiple of it. */
module Calendar {

  const SecondsPerDay: int := 86400

  /** Go's `time.Weekday` numbering: Sunday is 0, Monday is 1. */
  const Monday: int := 1

  /** Day number of a Unix time (floor division, also before 1970). */
  function DayOf(t: int): int {
    t / SecondsPerDay
  }

  /** Weekday of a day number: day 0 was a Thursday (4). */
  function Weekday(day: int): int {
    (day + 4) % 7
  }

  /** Days elapsed since the most recent Monday (0 on a Monday). */
  function DaysSinceMonday(day: int): int {
    (day + 3) % 7
  }

  /** Number of the Monday-started week containing a day. ISO weeks start
      on Monday, so two days share an ISO (year, week) exactly when they
      share this number. */
  function WeekIndex(day: int): int {
    (day + 3) / 7
  }

  /** Stepping back one day from a day that is not a Monday stays in the
      same week and comes one day closer to its Monday. */
  lemma StepBackWithinWeek(day: int)
    requires DaysSinceMonday(day) != 0
    ensures DaysSinceMonday(day - 1) == DaysSinceMonday(day) - 1
    ensures WeekIndex(day - 1) == WeekIndex(day)
  {
    var q, r := (day + 3) / 7, (day + 3) % 7;
    assert day + 3 == 7 * q + r;
    assert day + 2 == 7 * q + (r - 1) && 0 <= r - 1 < 7;
  }

  /** The loop of `getStartOfTheWeek`: step back one day at a time until the
      weekday is Monday. */
  function WalkBackToMonday(day: int): (m: int)
    ensures day - m == DaysSinceMonday(day)
    ensures Weekday(m) == Monday
    ensures WeekIndex(m) == WeekIndex(day)
    decreases DaysSinceMonday(day)
  {
    if Weekday(day) == Monday then day
    else
      StepBackWithinWeek(day);
      WalkBackToMonday(day - 1)
  }

  /** `getStartOfTheWeek`: midnight at the start of the Monday of the week
      containing `now`. */
  function StartOfTheWeek(now: int): (start: int)
    ensures start % SecondsPerDay == 0
    ensures start <= now < start + 7 * SecondsPerDay
    ensures Weekday(DayOf(start)) == Monday
    ensures WeekIndex(DayOf(start)) == WeekIndex(DayOf(now))
  {
    var monday := WalkBackToMonday(DayOf(now));
    assert DayOf(monday * SecondsPerDay) == monday;
    monday * SecondsPerDay
  }

  /** A Unix time at least a week after a week start lies in a later week. */
  lemma WeekLaterIsNewWeek(start: int, now: int)
    requires start % SecondsPerDay == 0 && Weekday(DayOf(start)) == Monday
    requires now >= start + 7 * SecondsPerDay
    ensures WeekIndex(DayOf(now)) > WeekIndex(DayOf(start))
  {
    var d := DayOf(start);
    assert DaysSinceMonday(d) == 0;
    assert DayOf(now) >= d + 7;
  }

  /** An ISO (year, week) pair, as `time.Time.ISOWeek` returns it. */
  datatype IsoWeek = IsoWeek(year: int, week: int)

  /** `isoWeek` labels each Unix time with its ISO week: equal labels for
      exactly the times in the same Monday-started week. Go's own
      computation of the label (and its time zone) is outside the model. */
  ghost predicate IsIsoWeekLabelling(isoWeek: int -> IsoWeek) {
    forall t1, t2 :: isoWeek(t1) == isoWeek(t2) <==> WeekIndex(DayOf(t1)) == WeekIndex(DayOf(t2))
  }
}

=== FILE: code_format.dfy ===
/** How codes are written and read back: `SanitizeCode` (also the inline
    normalisation of the entry-code check), and the invitation-code helpers
    `generateRandomCode` / `randomCodeToString`, which both study handlers
    declare identically and which are modelled once here. */
module CodeFormat {
  import opened Strings
  import opened Decimal

  /** The three characters a participant may type between code digits. */
  predicate IsSeparator(c: char) {
    c == ' ' || c == '_' || c == '-'
  }

  predicate NoSeparators(s: string) {
    forall i :: 0 <= i < |s| ==> !IsSeparator(s[i])
  }

  /** Reference meaning of sanitising: drop every separator, keep every other
      character in order. */
  function StripSeparators(s: string): string {
    if |s| == 0 then ""
    else (if IsSeparator(s[0]) then "" else [s[0]]) + StripSeparators(s[1..])
  }

  lemma {:induction false} StripAppend(a: string, b: string)
    ensures StripSeparators(a + b) == StripSeparators(a) + StripSeparators(b)
  {
    if |a| > 0 {
      StripAppend(a[1..], b);
      assert (a + b)[1..] == a[1..] + b;
    } else {
      assert a + b == b;
    }
  }

  lemma {:induction false} StripLeavesNoSeparator(s: string)
    ensures NoSeparators(StripSeparators(s))
    ensures |StripSeparators(s)| <= |s|
  {
    if |s| > 0 {
      StripLeavesNoSeparator(s[1..]);
    }
  }

  lemma {:induction false} StripWithoutSeparators(s: string)
    requires NoSeparators(s)
    ensures StripSeparators(s) == s
  {
    if |s| > 0 {
      StripWithoutSeparators(s[1..]);
      assert s == [s[0]] + s[1..];
    }
  }

  /** Three `strings.ReplaceAll` passes removing space, underscore, hyphen. */
  function SanitizeCode(code: string): (r: string)
    ensures r == StripSeparators(code)
  {
    SanitizeStep(code);
    RemoveChar(RemoveChar(RemoveChar(code, ' '), '_'), '-')
  }

  /** The three passes, one character of input at a time. */
  lemma {:induction false} SanitizeStep(s: string)
    ensures RemoveChar(RemoveChar(RemoveChar(s, ' '), '_'), '-') == StripSeparators(s)
  {
    if |s| > 0 {
      SanitizeStep(s[1..]);
      var h1 := if s[0] == ' ' then "" else [s[0]];
      var t1 := RemoveChar(s[1..], ' ');
      assert RemoveChar(s, ' ') == h1 + t1;
      RemoveCharAppend(h1, t1, '_');
      var h2 := RemoveChar(h1, '_');
      var t2 := RemoveChar(t1, '_');
      RemoveCharAppend(h2, t2, '-');
      var h3 := RemoveChar(h2, '-');
      assert h3 == (if IsSeparator(s[0]) then "" else [s[0]]);
    }
  }

  /** The output of `SanitizeCode` holds no separator, is no longer than its
      input, and sanitising again changes nothing. */
  lemma SanitizeCodeProperties(code: string)
    ensures NoSeparators(SanitizeCode(code))
    ensures |SanitizeCode(code)| <= |code|
    ensures SanitizeCode(SanitizeCode(code)) == SanitizeCode(code)
  {
    StripLeavesNoSeparator(code);
    StripWithoutSeparators(StripSeparators(code));
  }

  /** A code that holds no separator is returned unchanged. */
  lemma SanitizeCodeKeepsCleanCode(code: string)
    requires NoSeparators(code)
    ensures SanitizeCode(code) == code
  {
    StripWithoutSeparators(code);
  }

  /** Sanitising distributes over concatenation, so the characters that are
      not separators keep their relative order. */
  lemma SanitizeCodeAppend(a: string, b: string)
    ensures SanitizeCode(a + b) == SanitizeCode(a) + SanitizeCode(b)
  {
    StripAppend(a, b);
  }

  /** Exclusive upper bound of `rand.Intn(999999999999 - 100000000000)`. */
  const CodeDrawBound: int := 999999999999 - 100000000000

  /** Length of a code rendering from which the pretty form adds hyphens. */
  const PrettyLength: int := 12

  /** `randomCodeToString`: `%d` of the code, hyphenated 4-4-rest when
      `pretty` is asked for and the rendering has at least 12 characters. */
  function RandomCodeToString(code: int, pretty: bool): (r: string)
    ensures !pretty || |IntToString(code)| < PrettyLength ==> r == IntToString(code)
    ensures pretty && |IntToString(code)| >= PrettyLength ==>
      |r| == |IntToString(code)| + 2 && r[4] == '-' && r[9] == '-'
  {
    var s := IntToString(code);
    if !pretty || |s| < PrettyLength then s
    else s[0..4] + "-" + s[4..8] + "-" + s[8..]
  }

  /** Sanitising a prefix, a hyphen and a clean tail sanitises the prefix
      and keeps the tail. */
  lemma {:induction false} StripHyphenTail(p: string, c: string)
    requires NoSeparators(c)
    ensures StripSeparators(p + "-" + c) == StripSeparators(p) + c
  {
    if |p| == 0 {
      assert p + "-" + c == "-" + c;
      assert ("-" + c)[1..] == c;
      StripWithoutSeparators(c);
    } else {
      assert (p + "-" + c)[1..] == p[1..] + "-" + c;
      StripHyphenTail(p[1..], c);
    }
  }

  /** Sanitising a hyphen-joined triple of clean pieces concatenates them. */
  lemma StripHyphenated(a: string, b: string, c: string)
    requires NoSeparators(a) && NoSeparators(b) && NoSeparators(c)
    ensures StripSeparators(a + "-" + b + "-" + c) == a + b + c
  {
    StripHyphenTail(a + "-" + b, c);
    StripHyphenTail(a, b);
    StripWithoutSeparators(a);
  }

  /** Round trip: the pretty code a participant receives, once sanitised,
      is the plain code stored in the database. */
  lemma PrettyCodeRoundTrip(code: int)
    requires code >= 0
    ensures SanitizeCode(RandomCodeToString(code, true)) == RandomCodeToString(code, false)
  {
    var s := IntToString(code);
    assert NoSeparators(s);
    if |s| >= PrettyLength {
      var a, b, c := s[0..4], s[4..8], s[8..];
      assert NoSeparators(a) && NoSeparators(b) && NoSeparators(c);
      StripHyphenated(a, b, c);
      assert a + b + c == s;
    } else {
      StripWithoutSeparators(s);
    }
  }

  /** For a negative code the round trip breaks: the minus sign is itself a
      separator and is sanitised away. Negative codes never arise, since
      generated codes are drawn from a non-negative range. */
  lemma NegativeCodeLosesSign()
    ensures SanitizeCode(RandomCodeToString(-5, true)) != RandomCodeToString(-5, false)
  {
    assert RandomCodeToString(-5, true) == "-5";
    assert StripSeparators("-5") == "5";
  }

  /** `generateRandomCode` as written: the code IS the draw from
      `rand.Intn(999999999999 - 100000000000)`, so it lies in
      `[0, 899999999999)`. */
  function GenerateRandomCode(draw: int): (code: int)
    requires 0 <= draw < CodeDrawBound
    ensures 0 <= code < 899999999999
  {
    draw
  }

  /** The comment above the call promises a 12 digit code, but a small draw
      yields a code of a single digit, which is then never hyphenated. */
  lemma GeneratedCodeMayBeShort()
    ensures |IntToString(GenerateRandomCode(7))| == 1
    ensures RandomCodeToString(GenerateRandomCode(7), true) == "7"
  {
  }

  /** Every draw below `10^11` gives fewer than 12 digits. */
  lemma GeneratedCodeShortBelow(draw: int)
    requires 0 <= draw < 100000000000
    ensures |IntToString(GenerateRandomCode(draw))| < PrettyLength
  {
    assert Pow10(11) == 100000000000;
    NatToStringLength(draw, 11);
  }

  /** The evidently intended generator: offset the draw by the smallest 12
      digit number, which the bound `999999999999 - 100000000000` implies. */
  function GenerateTwelveDigitCode(draw: int): (code: int)
    requires 0 <= draw < CodeDrawBound
    ensures 100000000000 <= code < 999999999999
    ensures |IntToString(code)| == PrettyLength
  {
    var code := 100000000000 + draw;
    assert Pow10(11) == 100000000000;
    assert Pow10(12) == 1000000000000;
    NatToStringLength(code, 12);
    NatToStringLength(code, 11);
    code
  }

  /** With the intended generator every pretty code has the shape
      `dddd-dddd-dddd` and every plain code has exactly 12 digits. */
  lemma TwelveDigitCodeIsAlwaysHyphenated(draw: int)
    requires 0 <= draw < CodeDrawBound
    ensures |RandomCodeToString(GenerateTwelveDigitCode(draw), false)| == 12
    ensures |RandomCodeToString(GenerateTwelveDigitCode(draw), true)| == 14
    ensures RandomCodeToString(GenerateTwelveDigitCode(draw), true)[4] == '-'
    ensures RandomCodeToString(GenerateTwelveDigitCode(draw), true)[9] == '-'
  {
  }
}

=== FILE: collections.dfy ===
/** Sequence operations that stand for the document-store queries the
    service issues: a `Find` with a filter is `Filter`, a `DeleteMany` keeps
    the complement, `FindOne`/`UpdateOne`/`DeleteOne` act on the first
    matching document in natural (insertion) order, and a sorted `Find` is
    `SortBy` after `Filter`. */
module Collections {
  import opened Wrappers

  /** Failures the store reports: no document matched a single-document
      query, a unique index refused an insert, an update found nothing to
      change, a malformed object id, or the store being unreachable. */
  datatype StoreError = NoDocuments | DuplicateKey | NotModified | InvalidObjectId | Unavailable

  /** The elements of `s` satisfying `p`, in their original order. */
  function Filter<T>(s: seq<T>, p: T -> bool): (r: seq<T>)
    ensures |r| <= |s|
    ensures forall i :: 0 <= i < |r| ==> r[i] in s && p(r[i])
    ensures forall i :: 0 <= i < |s| && p(s[i]) ==> s[i] in r
  {
    if |s| == 0 then []
    else (if p(s[0]) then [s[0]] else []) + Filter(s[1..], p)
  }

  /** `Filter` keeps every copy of a matching element and no copy of any
      other: it is exact, not just membership-preserving. */
  lemma {:induction false} FilterMultiset<T>(s: seq<T>, p: T -> bool, x: T)
    ensures multiset(Filter(s, p))[x] == if p(x) then multiset(s)[x] else 0
  {
    if |s| > 0 {
      FilterMultiset(s[1..], p, x);
      assert s == [s[0]] + s[1..];
    }
  }

  /** A filter and its complement split the sequence: together they keep
      every element exactly once. */
  lemma {:induction false} FilterSplitCount<T>(s: seq<T>, p: T -> bool, q: T -> bool)
    requires forall x :: q(x) <==> !p(x)
    ensures |Filter(s, p)| + |Filter(s, q)| == |s|
  {
    if |s| > 0 {
      FilterSplitCount(s[1..], p, q);
    }
  }

  /** What a unique index sees of a string field stored with `omitempty`:
      an empty string is not stored at all and is indexed as null, so two
      records without the field collide like two equal strings. */
  function IndexedString(field: string): (key: Option<string>)
    ensures key.None? <==> field == ""
    ensures key.Some? ==> key.value == field
  {
    if field == "" then None else Some(field)
  }

  /** An equality filter `{field: value}` on an `omitempty` string field
      matches only records that store the field with that value. */
  predicate FieldEquals(field: string, value: string) {
    field != "" && field == value
  }

  /** Under a unique index on an `omitempty` string field, a record with a
      non-empty value is the only one holding that value. */
  lemma IndexedKeyOnlyAt<T>(s: seq<T>, key: T -> string, i: int)
    requires forall a, b :: 0 <= a < b < |s| ==> IndexedString(key(s[a])) != IndexedString(key(s[b]))
    requires 0 <= i < |s| && key(s[i]) != ""
    ensures forall k :: 0 <= k < |s| && k != i ==> key(s[k]) != key(s[i])
  {
    forall k | 0 <= k < |s| && k != i
      ensures key(s[k]) != key(s[i])
    {
      if k < i {
        assert IndexedString(key(s[k])) != IndexedString(key(s[i]));
      } else {
        assert IndexedString(key(s[i])) != IndexedString(key(s[k]));
      }
    }
  }

  /** `s` is ordered by `key`, smallest first. */
  predicate SortedBy<T>(s: seq<T>, key: T -> int) {
    forall i, j :: 0 <= i < j < |s| ==> key(s[i]) <= key(s[j])
  }

  /** Inserts `x` into a sequence already ordered by `key`. */
  function InsertBy<T>(x: T, s: seq<T>, key: T -> int): (r: seq<T>)
    requires SortedBy(s, key)
    ensures SortedBy(r, key)
    ensures multiset(r) == multiset(s) + multiset{x}
    ensures forall i :: 0 <= i < |r| ==> r[i] == x || r[i] in s
  {
    if |s| == 0 || key(x) <= key(s[0]) then [x] + s
    else
      var tail := InsertBy(x, s[1..], key);
      HeadBoundsTail(x, s, tail, key);
      ConsSorted(s[0], tail, key);
      assert s == [s[0]] + s[1..];
      [s[0]] + tail
  }

  /** The head of a sorted `s` is a lower bound of anything built from the
      rest of `s` and an element with a larger key. */
  lemma HeadBoundsTail<T>(x: T, s: seq<T>, tail: seq<T>, key: T -> int)
    requires SortedBy(s, key) && |s| > 0 && key(s[0]) < key(x)
    requires forall i :: 0 <= i < |tail| ==> tail[i] == x || tail[i] in s[1..]
    ensures forall i :: 0 <= i < |tail| ==> key(s[0]) <= key(tail[i])
  {
    forall i | 0 <= i < |tail|
      ensures key(s[0]) <= key(tail[i])
    {
      if tail[i] != x {
        var k :| 0 <= k < |s[1..]| && s[1..][k] == tail[i];
        assert s[1..][k] == s[k + 1];
      }
    }
  }

  /** Putting a lower bound in front of a sorted sequence keeps it sorted. */
  lemma ConsSorted<T>(h: T, tail: seq<T>, key: T -> int)
    requires SortedBy(tail, key)
    requires forall i :: 0 <= i < |tail| ==> key(h) <= key(tail[i])
    ensures SortedBy([h] + tail, key)
  {
    var r := [h] + tail;
    forall i, j | 0 <= i < j < |r|
      ensures key(r[i]) <= key(r[j])
    {
      assert r[j] == tail[j - 1];
      if i > 0 {
        assert r[i] == tail[i - 1];
      }
    }
  }

  /** A sorting permutation of `s` by ascending `key` (insertion sort; the
      order among equal keys is not something the model promises). */
  function SortBy<T>(s: seq<T>, key: T -> int): (r: seq<T>)
    ensures SortedBy(r, key)
    ensures multiset(r) == multiset(s)
  {
    if |s| == 0 then []
    else
      assert s == [s[0]] + s[1..];
      InsertBy(s[0], SortBy(s[1..], key), key)
  }

  /** Position of the first element satisfying `p`, if any. */
  function FirstIndex<T>(s: seq<T>, p: T -> bool): (r: Option<nat>)
    ensures r.Some? ==> r.value < |s| && p(s[r.value])
    ensures r.Some? ==> forall j :: 0 <= j < r.value ==> !p(s[j])
    ensures r.None? <==> forall j :: 0 <= j < |s| ==> !p(s[j])
  {
    if |s| == 0 then None
    else if p(s[0]) then Some(0)
    else match FirstIndex(s[1..], p)
      case None => None
      case Some(i) => Some(i + 1)
  }

  /** The first position satisfying `p` is what `FirstIndex` finds. */
  lemma {:induction false} FirstIndexOf<T>(s: seq<T>, p: T -> bool, i: int)
    requires 0 <= i < |s| && p(s[i])
    requires forall j :: 0 <= j < i ==> !p(s[j])
    ensures FirstIndex(s, p) == Some(i)
  {
    if i > 0 {
      FirstIndexOf(s[1..], p, i - 1);
    }
  }

  /** A property of every element survives a permutation. */
  lemma PermutationKeeps<T>(a: seq<T>, b: seq<T>, p: T -> bool)
    requires multiset(a) == multiset(b)
    requires forall i :: 0 <= i < |b| ==> p(b[i])
    ensures forall i :: 0 <= i < |a| ==> p(a[i])
  {
    forall i | 0 <= i < |a|
      ensures p(a[i])
    {
      assert a[i] in multiset(b);
    }
  }
}

=== FILE: control_codes.dfy ===
/** The control-code collection: codes handed out with invitations, in
    insertion order, with a unique index on `code` (stored `omitempty`). */
module ControlCodes {
  import opened Wrappers
  import opened Collections

  datatype ControlCode = ControlCode(code: string, createdAt: int)

  /** The unique index on `code` holds. */
  predicate UniqueCodes(store: seq<ControlCode>) {
    forall i, j :: 0 <= i < j < |store| ==> IndexedString(store[i].code) != IndexedString(store[j].code)
  }

  /** Some record holds the same indexed code: an insert would collide. */
  predicate CodeTaken(store: seq<ControlCode>, code: string) {
    exists i :: 0 <= i < |store| && IndexedString(store[i].code) == IndexedString(code)
  }

  /** `AddControlCode`: insert the code created at `now`, unless the unique
      index already holds it (the invitation loop's retry relies on this
      refusal). */
  function AddControlCode(store: seq<ControlCode>, code: string, now: int): (r: Result<seq<ControlCode>, StoreError>)
    ensures r.Ok? ==> r.value == store + [ControlCode(code, now)]
    ensures r.Err? <==> CodeTaken(store, code)
    ensures r.Err? ==> r.error == DuplicateKey
    ensures UniqueCodes(store) && r.Ok? ==> UniqueCodes(r.value)
  {
    if CodeTaken(store, code) then Err(DuplicateKey)
    else Ok(store + [ControlCode(code, now)])
  }

  /** Adding the same code twice fails the second time. */
  lemma AddTwiceFails(store: seq<ControlCode>, code: string, now: int, later: int)
    requires AddControlCode(store, code, now).Ok?
    ensures AddControlCode(AddControlCode(store, code, now).value, code, later) == Err(DuplicateKey)
  {
    var added := AddControlCode(store, code, now).value;
    assert IndexedString(added[|store|].code) == IndexedString(code);
  }

  /** Under the unique index a non-empty code is stored at one position
      only (the control-code counterpart of `EntryCodes.CodeOnlyAt`). */
  lemma CodeOnlyAt(store: seq<ControlCode>, i: int)
    requires UniqueCodes(store)
    requires 0 <= i < |store| && store[i].code != ""
    ensures forall k :: 0 <= k < |store| && k != i ==> store[k].code != store[i].code
  {
    IndexedKeyOnlyAt(store, (c: ControlCode) => c.code, i);
  }

  /** `FindControlCode`: the first record storing exactly this code. */
  function FindControlCode(store: seq<ControlCode>, code: string): (r: Result<ControlCode, StoreError>)
    ensures r.Ok? ==> r.value in store && r.value.code == code && code != ""
    ensures r.Err? <==> forall i :: 0 <= i < |store| ==> !FieldEquals(store[i].code, code)
    ensures r.Err? ==> r.error == NoDocuments
  {
    match FirstIndex(store, (c: ControlCode) => FieldEquals(c.code, code))
    case Some(i) => Ok(store[i])
    case None => Err(NoDocuments)
  }

  /** A code just added is found with its creation time. */
  lemma FindAfterAdd(store: seq<ControlCode>, code: string, now: int)
    requires code != "" && AddControlCode(store, code, now).Ok?
    ensures FindControlCode(AddControlCode(store, code, now).value, code) == Ok(ControlCode(code, now))
  {
    var added := AddControlCode(store, code, now).value;
    FirstIndexOf(added, (c: ControlCode) => FieldEquals(c.code, code), |store|);
  }

  /** `DeleteControlCodesBefore(before)`: removes exactly the codes created
      strictly before `before` and reports how many. */
  function DeleteControlCodesBefore(store: seq<ControlCode>, before: int): (r: (seq<ControlCode>, int))
    ensures r.0 == Filter(store, (c: ControlCode) => c.createdAt >= before)
    ensures r.1 == |Filter(store, (c: ControlCode) => c.createdAt < before)|
  {
    var kept := Filter(store, (c: ControlCode) => c.createdAt >= before);
    FilterSplitCount(store, (c: ControlCode) => c.createdAt < before, (c: ControlCode) => c.createdAt >= before);
    (kept, |store| - |kept|)
  }

  /** Expiry: each code created at or after the cut-off survives, and none
      from before it. */
  lemma DeleteControlCodesBeforeIsExact(store: seq<ControlCode>, before: int, c: ControlCode)
    ensures multiset(DeleteControlCodesBefore(store, before).0)[c] ==
            if c.createdAt >= before then multiset(store)[c] else 0
  {
    FilterMultiset(store, (c: ControlCode) => c.createdAt >= before, c);
  }

  /** `DeleteControlCode(code)`: removes the first record storing this code,
      if any, and reports how many were removed (0 or 1). */
  function DeleteControlCode(store: seq<ControlCode>, code: string): (r: (seq<ControlCode>, int))
    ensures r.1 == 0 <==> forall i :: 0 <= i < |store| ==> !FieldEquals(store[i].code, code)
    ensures r.1 == 0 ==> r.0 == store
    ensures r.1 != 0 ==> r.1 == 1 && exists i :: 0 <= i < |store| && FieldEquals(store[i].code, code) &&
                                                (forall j :: 0 <= j < i ==> !FieldEquals(store[j].code, code)) &&
                                                r.0 == store[..i] + store[i + 1..]
  {
    match FirstIndex(store, (c: ControlCode) => FieldEquals(c.code, code))
    case Some(i) => (store[..i] + store[i + 1..], 1)
    case None => (store, 0)
  }

  /** Under the unique index, deleting a code makes it unfindable and frees
      it for a later insert. */
  lemma DeletedCodeIsGone(store: seq<ControlCode>, code: string, now: int)
    requires UniqueCodes(store) && code != ""
    ensures FindControlCode(DeleteControlCode(store, code).0, code).Err?
    ensures AddControlCode(DeleteControlCode(store, code).0, code, now).Ok?
  {
    var r := DeleteControlCode(store, code).0;
    if DeleteControlCode(store, code).1 != 0 {
      var i :| 0 <= i < |store| && FieldEquals(store[i].code, code) && r == store[..i] + store[i + 1..];
      forall k | 0 <= k < |r|
        ensures IndexedString(r[k].code) != IndexedString(code)
      {
        if k < i {
          assert r[k] == store[k];
          assert IndexedString(store[k].code) != IndexedString(store[i].code);
        } else {
          assert r[k] == store[k + 1];
          assert IndexedString(store[i].code) != IndexedString(store[k + 1].code);
        }
      }
    }
  }
}

=== FILE: control_contacts.dfy ===
/** The control-contact collection: each study keeps registrations of
    control participants in its own collection, and both declare the same
    record shape and the same queries over it. */
module ControlContacts {
  import opened Wrappers
  import opened Collections

  /** A control registration. `id` is the object id, as its hex text. */
  datatype ControlRegistration = ControlRegistration(
    id: string, submittedAt: int, email: string, age: int, controlResponse: string, invitedAt: int)

  predicate IsHexDigit(c: char) {
    '0' <= c <= '9' || 'a' <= c <= 'f' || 'A' <= c <= 'F'
  }

  /** What `primitive.ObjectIDFromHex` accepts: 24 hex digits, in either
      case. */
  predicate IsObjectIdHex(s: string) {
    |s| == 24 && forall i :: 0 <= i < |s| ==> IsHexDigit(s[i])
  }

  /** The digit as `ObjectID.Hex` writes it: lower case. */
  function LowerHexDigit(c: char): (d: char)
    ensures IsHexDigit(c) <==> IsHexDigit(d)
    ensures !('A' <= d <= 'F')
    ensures !('A' <= c <= 'F') ==> d == c
  {
    if 'A' <= c <= 'F' then (c as int - 'A' as int + 'a' as int) as char else c
  }

  /** The hex text of the object id that `ObjectIDFromHex` decodes `s` to:
      two spellings name the same id exactly when their lower-case forms
      agree. */
  function LowerHex(s: string): (t: string)
    ensures |t| == |s|
    ensures forall i :: 0 <= i < |s| ==> t[i] == LowerHexDigit(s[i])
  {
    seq(|s|, i requires 0 <= i < |s| => LowerHexDigit(s[i]))
  }

  /** The hex text of an object id, as the store hands it out: 24
      lower-case hex digits. */
  predicate IsIdText(s: string) {
    |s| == 24 && forall i :: 0 <= i < |s| ==> '0' <= s[i] <= '9' || 'a' <= s[i] <= 'f'
  }

  /** An id's own text is already in lower case, and is accepted as hex. */
  lemma IdTextIsCanonical(s: string)
    requires IsIdText(s)
    ensures IsObjectIdHex(s) && LowerHex(s) == s
  {
  }

  /** Lower-casing accepts the same texts and is idempotent. */
  lemma LowerHexIsCanonical(s: string)
    ensures IsObjectIdHex(LowerHex(s)) <==> IsObjectIdHex(s)
    ensures IsObjectIdHex(s) ==> IsIdText(LowerHex(s))
    ensures LowerHex(LowerHex(s)) == LowerHex(s)
  {
  }

  /** The primary key holds: every stored id is an id's text and no two
      contacts share one. */
  predicate WellKeyed(store: seq<ControlRegistration>) {
    (forall i :: 0 <= i < |store| ==> IsIdText(store[i].id)) &&
    (forall i, j :: 0 <= i < j < |store| ==> store[i].id != store[j].id)
  }

  /** `AddControlContact`: insert the contact under the object id the store
      assigns (or the one it carries); the primary key is unique, so a taken
      id is refused. The key stays unique, and the contact is found again
      under the returned id. */
  function AddControlContact(store: seq<ControlRegistration>, contact: ControlRegistration, newId: string): (r: Result<seq<ControlRegistration>, StoreError>)
    requires IsIdText(newId)
    ensures r.Ok? ==> r.value == store + [contact.(id := newId)]
    ensures r.Err? <==> exists i :: 0 <= i < |store| && store[i].id == newId
    ensures r.Err? ==> r.error == DuplicateKey
    ensures r.Ok? && WellKeyed(store) ==> WellKeyed(r.value)
    ensures r.Ok? ==> FindOneControlContact(r.value, newId) == Ok(contact.(id := newId))
  {
    if exists i :: 0 <= i < |store| && store[i].id == newId then Err(DuplicateKey)
    else
      AppendedContactIsFound(store, contact, newId);
      Ok(store + [contact.(id := newId)])
  }

  /** A contact appended under an id no contact holds is what the lookup by
      that id finds. */
  lemma AppendedContactIsFound(store: seq<ControlRegistration>, contact: ControlRegistration, newId: string)
    requires IsIdText(newId)
    requires forall i :: 0 <= i < |store| ==> store[i].id != newId
    ensures FindOneControlContact(store + [contact.(id := newId)], newId) == Ok(contact.(id := newId))
  {
    var added := store + [contact.(id := newId)];
    IdTextIsCanonical(newId);
    var r := FindOneControlContact(added, newId);
    assert added[|store|].id == newId;
    var k :| 0 <= k < |added| && added[k] == r.value;
  }

  /** The filter of the fetch: submitted strictly after `since`, and, unless
      invited contacts are asked for, not invited (`invitedAt < 1`). */
  predicate FetchFilter(c: ControlRegistration, since: int, includeInvited: bool) {
    c.submittedAt > since && (includeInvited || c.invitedAt < 1)
  }

  function SubmittedAtKey(c: ControlRegistration): int {
    -c.submittedAt
  }

  /** Ascending by the negated submission time is latest first. */
  lemma LatestFirst(s: seq<ControlRegistration>)
    requires SortedBy(s, SubmittedAtKey)
    ensures forall i, j :: 0 <= i < j < |s| ==> s[i].submittedAt >= s[j].submittedAt
  {
    forall i, j | 0 <= i < j < |s|
      ensures s[i].submittedAt >= s[j].submittedAt
    {
      assert SubmittedAtKey(s[i]) <= SubmittedAtKey(s[j]);
    }
  }

  /** `FetchControlContacts`: the matching contacts, latest submission
      first. The order among equal submission times is the store's and is
      not promised. */
  function FetchControlContacts(store: seq<ControlRegistration>, since: int, includeInvited: bool): (r: seq<ControlRegistration>)
    ensures forall i, j :: 0 <= i < j < |r| ==> r[i].submittedAt >= r[j].submittedAt
    ensures forall i :: 0 <= i < |r| ==> FetchFilter(r[i], since, includeInvited)
    ensures multiset(r) == multiset(Filter(store, (c: ControlRegistration) => FetchFilter(c, since, includeInvited)))
  {
    var p := (c: ControlRegistration) => FetchFilter(c, since, includeInvited);
    var matching := Filter(store, p);
    var sorted := SortBy(matching, SubmittedAtKey);
    LatestFirst(sorted);
    PermutationKeeps(sorted, matching, p);
    sorted
  }

  /** The fetch is exact: each contact comes back as often as it is stored
      if it passes the filter, and never otherwise. */
  lemma FetchIsExact(store: seq<ControlRegistration>, since: int, includeInvited: bool, c: ControlRegistration)
    ensures multiset(FetchControlContacts(store, since, includeInvited))[c] ==
            if FetchFilter(c, since, includeInvited) then multiset(store)[c] else 0
  {
    FilterMultiset(store, (c: ControlRegistration) => FetchFilter(c, since, includeInvited), c);
  }

  /** `FindOneControlContact`: the contact with the object id that `id`
      spells, in either case. */
  function FindOneControlContact(store: seq<ControlRegistration>, id: string): (r: Result<ControlRegistration, StoreError>)
    ensures !IsObjectIdHex(id) ==> r == Err(InvalidObjectId)
    ensures r.Ok? ==> r.value in store && r.value.id == LowerHex(id)
    ensures IsObjectIdHex(id) ==> (r.Err? <==> forall i :: 0 <= i < |store| ==> store[i].id != LowerHex(id))
    ensures r.Err? ==> r.error == InvalidObjectId || r.error == NoDocuments
  {
    if !IsObjectIdHex(id) then Err(InvalidObjectId)
    else match FirstIndex(store, (c: ControlRegistration) => c.id == LowerHex(id))
      case Some(i) => Ok(store[i])
      case None => Err(NoDocuments)
  }

  /** `MarkControlContactInvited`: set `invitedAt = now` on the contact with
      the object id that `id` spells and change nothing else. An id that
      matches no contact is not an error. */
  function MarkControlContactInvited(store: seq<ControlRegistration>, id: string, now: int): (r: Result<seq<ControlRegistration>, StoreError>)
    ensures r.Err? <==> !IsObjectIdHex(id)
    ensures r.Err? ==> r.error == InvalidObjectId
    ensures r.Ok? ==> |r.value| == |store|
    ensures r.Ok? && (forall i :: 0 <= i < |store| ==> store[i].id != LowerHex(id)) ==> r.value == store
    ensures r.Ok? ==> forall i :: 0 <= i < |store| ==>
              r.value[i] == store[i] || (store[i].id == LowerHex(id) && r.value[i] == store[i].(invitedAt := now))
  {
    if !IsObjectIdHex(id) then Err(InvalidObjectId)
    else match FirstIndex(store, (c: ControlRegistration) => c.id == LowerHex(id))
      case Some(i) => Ok(store[i := store[i].(invitedAt := now)])
      case None => Ok(store)
  }

  /** A contact just marked is found again as invited at `now`. */
  lemma FindAfterMarkSeesInvited(store: seq<ControlRegistration>, id: string, now: int)
    requires FindOneControlContact(store, id).Ok?
    ensures FindOneControlContact(MarkControlContactInvited(store, id, now).value, id) ==
            Ok(FindOneControlContact(store, id).value.(invitedAt := now))
  {
    var marked := MarkControlContactInvited(store, id, now).value;
    var i := FirstIndex(store, (c: ControlRegistration) => c.id == LowerHex(id)).value;
    assert marked == store[i := store[i].(invitedAt := now)];
    assert FirstIndex(marked, (c: ControlRegistration) => c.id == LowerHex(id)) == Some(i) by {
      assert forall j :: 0 <= j < i ==> marked[j] == store[j];
      FirstIndexOf(marked, (c: ControlRegistration) => c.id == LowerHex(id), i);
    }
  }

  /** The case of the hex digits does not matter: looking up or marking by
      an id gives the same as by its lower-case spelling. */
  lemma IdCaseIsIgnored(store: seq<ControlRegistration>, id: string, now: int)
    ensures FindOneControlContact(store, id) == FindOneControlContact(store, LowerHex(id))
    ensures MarkControlContactInvited(store, id, now) == MarkControlContactInvited(store, LowerHex(id), now)
  {
    LowerHexIsCanonical(id);
  }

  /** `DeleteContactsBefore(before)`: removes exactly the contacts submitted
      strictly before `before` and reports how many. */
  function DeleteContactsBefore(store: seq<ControlRegistration>, before: int): (r: (seq<ControlRegistration>, int))
    ensures r.0 == Filter(store, (c: ControlRegistration) => c.submittedAt >= before)
    ensures r.1 == |Filter(store, (c: ControlRegistration) => c.submittedAt < before)|
  {
    var kept := Filter(store, (c: ControlRegistration) => c.submittedAt >= before);
    FilterSplitCount(store, (c: ControlRegistration) => c.submittedAt < before, (c: ControlRegistration) => c.submittedAt >= before);
    (kept, |store| - |kept|)
  }

  /** Retention: every contact submitted at or after the cut-off survives,
      with all its copies, and none from before it. */
  lemma DeleteContactsBeforeIsExact(store: seq<ControlRegistration>, before: int, c: ControlRegistration)
    ensures multiset(DeleteContactsBefore(store, before).0)[c] ==
            if c.submittedAt >= before then multiset(store)[c] else 0
  {
    FilterMultiset(store, (c: ControlRegistration) => c.submittedAt >= before, c);
  }
}

=== FILE: curve_builder.dfy ===
/** `InitFromSampleCSV`: building the weekly slot curve from a table of
    historic arrival times. Reading the file is left out: the table arrives
    as rows of fields. The random row choices are a parameter `draws`, one
    per sample, each within the range `rand.Intn` draws from. */
module CurveBuilder {
  import opened Wrappers
  import opened Decimal
  import opened Collections
  import opened Calendar
  import opened Sampler

  /** Where the source stops the process (`make` of a negative length,
      `rand.Intn` of a non-positive bound, a missing field, a fatal log on
      a value that is not an integer), the model returns an error. */
  datatype BuildError = NoHeaderRow | NegativeSampleCount | TooFewDataRows | MissingColumn | InvalidValue

  const SecondsPerMinute: int := 60
  const TwoTo64: int := 0x1_0000_0000_0000_0000

  /** Two's-complement wrap-around of Go's 64-bit `int`. */
  function WrapInt64(x: int): (r: int)
    ensures MinInt64 <= r <= MaxInt64
    ensures (r - x) % TwoTo64 == 0
    ensures MinInt64 <= x <= MaxInt64 ==> r == x
  {
    (x - MinInt64) % TwoTo64 + MinInt64
  }

  /** The sample read from data row `index`: its second field, in minutes,
      converted to seconds with 64-bit multiplication. */
  function SampleAt(data: seq<seq<string>>, index: int): (r: Result<int, BuildError>)
    requires 0 <= index < |data|
    ensures |data[index]| < 2 ==> r == Err(MissingColumn)
    ensures |data[index]| >= 2 ==> (r.Ok? <==> Atoi(data[index][1]).Ok?)
    ensures r.Err? ==> r.error == MissingColumn || r.error == InvalidValue
    ensures r.Ok? ==> (r.value - SecondsPerMinute * Atoi(data[index][1]).value) % TwoTo64 == 0
  {
    if |data[index]| < 2 then Err(MissingColumn)
    else match Atoi(data[index][1])
      case Err(_) => Err(InvalidValue)
      case Ok(minutes) => Ok(WrapInt64(minutes * SecondsPerMinute))
  }

  /** A minute count small enough not to overflow becomes exactly that many
      minutes in seconds. */
  lemma SampleIsMinutesInSeconds(data: seq<seq<string>>, index: int, minutes: int)
    requires 0 <= index < |data| && |data[index]| >= 2
    requires Atoi(data[index][1]) == Ok(minutes)
    requires MinInt64 <= minutes * SecondsPerMinute <= MaxInt64
    ensures SampleAt(data, index) == Ok(minutes * SecondsPerMinute)
  {
  }

  /** The draws index data rows other than the last. */
  predicate DrawsBelowLast(data: seq<seq<string>>, draws: seq<int>) {
    forall i :: 0 <= i < |draws| ==> 0 <= draws[i] < |data| - 1
  }

  /** The sampling loop: one sample per draw, in draw order, stopping at the
      first row that cannot be read. */
  function DrawSamples(data: seq<seq<string>>, draws: seq<int>): (r: Result<seq<int>, BuildError>)
    requires DrawsBelowLast(data, draws)
    ensures r.Ok? ==> |r.value| == |draws|
    ensures r.Ok? ==> forall i :: 0 <= i < |draws| ==> SampleAt(data, draws[i]) == Ok(r.value[i])
    ensures r.Err? ==> exists i :: 0 <= i < |draws| && SampleAt(data, draws[i]) == Err(r.error) &&
                                   forall j :: 0 <= j < i ==> SampleAt(data, draws[j]).Ok?
  {
    if |draws| == 0 then Ok([])
    else match SampleAt(data, draws[0])
      case Err(e) =>
        assert SampleAt(data, draws[0]) == Err(e);
        Err(e)
      case Ok(first) =>
        match DrawSamples(data, draws[1..])
        case Err(e) =>
          LaterFailureShifts(data, draws, e);
          Err(e)
        case Ok(rest) =>
          SamplesShift(data, draws, first, rest);
          Ok([first] + rest)
  }

  /** A failing draw among the later draws is a failing draw of the whole
      list once the first draw reads fine. */
  lemma LaterFailureShifts(data: seq<seq<string>>, draws: seq<int>, e: BuildError)
    requires |draws| > 0 && DrawsBelowLast(data, draws)
    requires SampleAt(data, draws[0]).Ok?
    requires exists i :: 0 <= i < |draws| - 1 && SampleAt(data, draws[1..][i]) == Err(e) &&
                         forall j :: 0 <= j < i ==> SampleAt(data, draws[1..][j]).Ok?
    ensures exists i :: 0 <= i < |draws| && SampleAt(data, draws[i]) == Err(e) &&
                        forall j :: 0 <= j < i ==> SampleAt(data, draws[j]).Ok?
  {
    var i :| 0 <= i < |draws| - 1 && SampleAt(data, draws[1..][i]) == Err(e) &&
             forall j :: 0 <= j < i ==> SampleAt(data, draws[1..][j]).Ok?;
    assert draws[1..][i] == draws[i + 1];
    forall j | 0 <= j < i + 1
      ensures SampleAt(data, draws[j]).Ok?
    {
      if j > 0 {
        assert draws[j] == draws[1..][j - 1];
      }
    }
  }

  /** The first sample followed by the samples of the later draws are the
      samples of all draws, position by position. */
  lemma SamplesShift(data: seq<seq<string>>, draws: seq<int>, first: int, rest: seq<int>)
    requires |draws| > 0 && DrawsBelowLast(data, draws)
    requires SampleAt(data, draws[0]) == Ok(first)
    requires |rest| == |draws| - 1
    requires forall i :: 0 <= i < |draws| - 1 ==> SampleAt(data, draws[1..][i]) == Ok(rest[i])
    ensures forall i :: 0 <= i < |draws| ==> SampleAt(data, draws[i]) == Ok(([first] + rest)[i])
  {
    forall i | 0 <= i < |draws|
      ensures SampleAt(data, draws[i]) == Ok(([first] + rest)[i])
    {
      if i > 0 {
        assert draws[i] == draws[1..][i - 1];
      }
    }
  }

  /** One sample coalesced into the curve: it raises the last step when it
      falls at that step's offset, and opens a new step one higher
      otherwise. */
  function AddSample(steps: seq<OpenSlots>, sample: int): (r: seq<OpenSlots>)
    requires |steps| >= 1
    ensures |r| >= 1 && r[|r| - 1] == OpenSlots(sample, steps[|steps| - 1].value + 1)
    ensures r[..|r| - 1] == steps ||
            (r[..|r| - 1] == steps[..|steps| - 1] && sample == steps[|steps| - 1].t)
    ensures r[..|r| - 1] == steps <==> sample != steps[|steps| - 1].t
  {
    var last := steps[|steps| - 1];
    if sample == last.t then steps[..|steps| - 1] + [OpenSlots(last.t, last.value + 1)]
    else steps + [OpenSlots(sample, last.value + 1)]
  }

  predicate StrictlyIncreasingValues(steps: seq<OpenSlots>) {
    forall i, j :: 0 <= i < j < |steps| ==> steps[i].value < steps[j].value
  }

  /** Every step of `steps` but the last is kept by a coalescing step. */
  lemma AddSampleKeeps(steps: seq<OpenSlots>, x: int, i: int)
    requires |steps| >= 1 && 0 <= i < |AddSample(steps, x)| - 1
    ensures AddSample(steps, x)[i] == steps[i]
  {
    var r := AddSample(steps, x);
    assert r[i] == r[..|r| - 1][i];
  }

  /** One coalescing step keeps the first offset, never lowers the first
      value, and keeps values strictly increasing. */
  lemma AddSampleRaises(steps: seq<OpenSlots>, x: int)
    requires |steps| >= 1
    ensures AddSample(steps, x)[0].t == steps[0].t
    ensures AddSample(steps, x)[0].value >= steps[0].value
    ensures StrictlyIncreasingValues(steps) ==> StrictlyIncreasingValues(AddSample(steps, x))
  {
    var r := AddSample(steps, x);
    if StrictlyIncreasingValues(steps) {
      forall i, j | 0 <= i < j < |r|
        ensures r[i].value < r[j].value
      {
        AddSampleKeeps(steps, x, i);
        if j < |r| - 1 {
          AddSampleKeeps(steps, x, j);
        }
      }
    }
    if |r| > 1 {
      AddSampleKeeps(steps, x, 0);
    } else {
      assert |steps| == 1;
    }
  }

  /** The coalescing loop: each sample in turn is added to the curve. */
  function Coalesce(steps: seq<OpenSlots>, samples: seq<int>): (r: seq<OpenSlots>)
    requires |steps| >= 1
    ensures 1 <= |r| <= |steps| + |samples|
    ensures r[0].t == steps[0].t && r[0].value >= steps[0].value
    ensures r[|r| - 1].value == steps[|steps| - 1].value + |samples|
    ensures StrictlyIncreasingValues(steps) ==> StrictlyIncreasingValues(r)
    decreases |samples|
  {
    if |samples| == 0 then steps
    else
      AddSampleRaises(steps, samples[0]);
      Coalesce(AddSample(steps, samples[0]), samples[1..])
  }

  /** Coalescing samples taken in the given order, starting from the step
      `(0, minVal)`. */
  function BuildSteps(minVal: int, samples: seq<int>): (steps: seq<OpenSlots>)
    ensures 1 <= |steps| <= |samples| + 1
    ensures steps[0].t == 0 && steps[0].value >= minVal
    ensures steps[|steps| - 1].value == minVal + |samples|
    ensures StrictlyIncreasingValues(steps)
  {
    Coalesce([OpenSlots(0, minVal)], samples)
  }

  function Identity(x: int): int {
    x
  }

  /** The curve of a sample set: `sort.Ints`, then coalescing. */
  function BuildCurve(samples: seq<int>, minVal: int): (steps: seq<OpenSlots>)
    ensures 1 <= |steps| <= |samples| + 1
    ensures steps[0].t == 0 && steps[0].value >= minVal
    ensures steps[|steps| - 1].value == minVal + |samples|
    ensures StrictlyIncreasingValues(steps)
  {
    var sorted := SortBy(samples, Identity);
    assert |sorted| == |multiset(sorted)| == |samples|;
    BuildSteps(minVal, sorted)
  }

  /** The source's demands on the random draws: one per sample, each in
      `[0, len(data) - 1)` where `data` is the table without its header. */
  predicate DrawsFit(rows: seq<seq<string>>, draws: seq<int>, target: int, minVal: int) {
    |draws| == (if target >= minVal then target - minVal else 0) &&
    (|rows| >= 3 ==> forall i :: 0 <= i < |draws| ==> 0 <= draws[i] < |rows| - 2)
  }

  /** `InitFromSampleCSV`: drop the header row, draw `target - minVal`
      samples, sort them, coalesce them into steps, and start the curve at
      the beginning of the current week. */
  function InitFromSampleCSV(s: Sampler, rows: seq<seq<string>>, draws: seq<int>,
                             target: int, minVal: int, now: int): (r: Result<Sampler, BuildError>)
    requires DrawsFit(rows, draws, target, minVal)
    ensures |rows| == 0 ==> r == Err(NoHeaderRow)
    ensures |rows| > 0 && target < minVal ==> r == Err(NegativeSampleCount)
    ensures |rows| > 0 && target > minVal && |rows| < 3 ==> r == Err(TooFewDataRows)
    ensures r.Ok? ==> r.value.instanceId == s.instanceId
    ensures r.Ok? ==> r.value.slotCurve.intervalStart == StartOfTheWeek(now)
    ensures r.Ok? ==> |r.value.slotCurve.openSlots| >= 1 && r.value.slotCurve.openSlots[0].t == 0
    ensures r.Ok? ==> r.value.slotCurve.openSlots[|r.value.slotCurve.openSlots| - 1].value == target
    ensures |rows| > 0 && target == minVal ==>
              r.Ok? && r.value.slotCurve.openSlots == [OpenSlots(0, minVal)]
    ensures |rows| >= 3 && target > minVal ==>
              (r.Ok? <==> DrawSamples(rows[1..], draws).Ok?)
    ensures r.Ok? && target > minVal ==>
              |rows| >= 3 && DrawSamples(rows[1..], draws).Ok? &&
              r.value.slotCurve.openSlots == BuildCurve(DrawSamples(rows[1..], draws).value, minVal)
  {
    if |rows| == 0 then Err(NoHeaderRow)
    else
      var data := rows[1..];
      var n := target - minVal;
      if n < 0 then Err(NegativeSampleCount)
      else if n > 0 && |data| < 2 then Err(TooFewDataRows)
      else
        match DrawSamples(data, draws)
        case Err(e) => Err(e)
        case Ok(samples) => Ok(WithCurveFrom(s, samples, minVal, now))
  }

  /** The sampler `s` with the curve built from `samples`, starting this
      week. */
  function WithCurveFrom(s: Sampler, samples: seq<int>, minVal: int, now: int): (r: Sampler)
    ensures r.instanceId == s.instanceId
    ensures r.slotCurve.intervalStart == StartOfTheWeek(now)
    ensures |r.slotCurve.openSlots| >= 1 && r.slotCurve.openSlots[0].t == 0
    ensures r.slotCurve.openSlots[|r.slotCurve.openSlots| - 1].value == minVal + |samples|
    ensures r.slotCurve.openSlots == BuildCurve(samples, minVal)
  {
    s.(slotCurve := SlotCurve(StartOfTheWeek(now), BuildCurve(samples, minVal)))
  }

  // ---- what the built curve means ----

  /** Number of samples at or before offset `e`. */
  function CountAtMost(samples: seq<int>, e: int): (n: nat)
    ensures n <= |samples|
  {
    if |samples| == 0 then 0
    else (if samples[0] <= e then 1 else 0) + CountAtMost(samples[1..], e)
  }

  function AtMost(e: int): int -> bool {
    x => x <= e
  }

  lemma {:induction false} CountAtMostIsFilter(samples: seq<int>, e: int)
    ensures CountAtMost(samples, e) == |Filter(samples, AtMost(e))|
  {
    if |samples| > 0 {
      CountAtMostIsFilter(samples[1..], e);
    }
  }

  /** Counting does not depend on the order of the samples. */
  lemma CountAtMostPermutation(a: seq<int>, b: seq<int>, e: int)
    requires multiset(a) == multiset(b)
    ensures CountAtMost(a, e) == CountAtMost(b, e)
  {
    CountAtMostIsFilter(a, e);
    CountAtMostIsFilter(b, e);
    forall x | true
      ensures multiset(Filter(a, AtMost(e)))[x] == multiset(Filter(b, AtMost(e)))[x]
    {
      FilterMultiset(a, AtMost(e), x);
      FilterMultiset(b, AtMost(e), x);
    }
    assert multiset(Filter(a, AtMost(e))) == multiset(Filter(b, AtMost(e)));
    assert |multiset(Filter(a, AtMost(e)))| == |Filter(a, AtMost(e))|;
    assert |multiset(Filter(b, AtMost(e)))| == |Filter(b, AtMost(e))|;
  }

  lemma {:induction false} CountAtMostAppend(samples: seq<int>, x: int, e: int)
    ensures CountAtMost(samples + [x], e) == CountAtMost(samples, e) + (if x <= e then 1 else 0)
  {
    if |samples| > 0 {
      CountAtMostAppend(samples[1..], x, e);
      assert (samples + [x])[1..] == samples[1..] + [x];
    } else {
      assert (samples + [x])[1..] == [];
    }
  }

  lemma {:induction false} CountAtMostAll(samples: seq<int>, e: int)
    requires forall i :: 0 <= i < |samples| ==> samples[i] <= e
    ensures CountAtMost(samples, e) == |samples|
  {
    if |samples| > 0 {
      CountAtMostAll(samples[1..], e);
    }
  }

  /** With no sample in `(a, b]`, the counts at `a` and at `b` agree. */
  lemma {:induction false} CountAtMostGap(samples: seq<int>, a: int, b: int)
    requires a <= b
    requires forall j :: 0 <= j < |samples| ==> samples[j] <= a || samples[j] > b
    ensures CountAtMost(samples, a) == CountAtMost(samples, b)
  {
    if |samples| > 0 {
      CountAtMostGap(samples[1..], a, b);
    }
  }

  predicate Ascending(samples: seq<int>) {
    forall i, j :: 0 <= i < j < |samples| ==> samples[i] <= samples[j]
  }

  predicate NonNegative(samples: seq<int>) {
    forall i :: 0 <= i < |samples| ==> samples[i] >= 0
  }

  /** Some step of `steps` starts at offset `x`. */
  ghost predicate IsOffset(steps: seq<OpenSlots>, x: int) {
    exists i :: 0 <= i < |steps| && steps[i].t == x
  }

  function LastOrZero(samples: seq<int>): int {
    if |samples| == 0 then 0 else samples[|samples| - 1]
  }

  /** The invariant of the coalescing loop after the ascending samples
      `done`: offsets strictly increase and the last one is the last sample;
      each step's value is `minVal` plus the samples at or before its
      offset; every sample is the offset of some step. */
  ghost predicate CurveOf(minVal: int, steps: seq<OpenSlots>, done: seq<int>) {
    |steps| >= 1 &&
    StrictlyIncreasingT(steps) &&
    steps[|steps| - 1].t == LastOrZero(done) &&
    steps[|steps| - 1].value == minVal + |done| &&
    (forall i :: 0 <= i < |steps| ==> steps[i].value == minVal + CountAtMost(done, steps[i].t)) &&
    (forall j :: 0 <= j < |done| ==> IsOffset(steps, done[j]))
  }

  /** One coalescing step keeps offsets strictly increasing when the sample
      is not before the last offset. */
  lemma AddSampleOffsets(steps: seq<OpenSlots>, x: int)
    requires |steps| >= 1 && StrictlyIncreasingT(steps) && steps[|steps| - 1].t <= x
    ensures StrictlyIncreasingT(AddSample(steps, x))
  {
    var r := AddSample(steps, x);
    forall i, j | 0 <= i < j < |r|
      ensures r[i].t < r[j].t
    {
      AddSampleKeeps(steps, x, i);
      if j < |r| - 1 {
        AddSampleKeeps(steps, x, j);
      } else if i < |steps| - 1 {
        assert steps[i].t < steps[|steps| - 1].t;
      }
    }
  }

  /** One coalescing step keeps "value = minVal + samples due" when the new
      sample is not before any earlier sample. */
  lemma AddSampleValues(steps: seq<OpenSlots>, q: seq<int>, x: int, minVal: int)
    requires |steps| >= 1 && StrictlyIncreasingT(steps) && steps[|steps| - 1].t <= x
    requires forall i :: 0 <= i < |steps| ==> steps[i].value == minVal + CountAtMost(q, steps[i].t)
    requires steps[|steps| - 1].value == minVal + |q|
    requires forall j :: 0 <= j < |q| ==> q[j] <= x
    ensures forall i :: 0 <= i < |AddSample(steps, x)| ==>
              AddSample(steps, x)[i].value == minVal + CountAtMost(q + [x], AddSample(steps, x)[i].t)
  {
    var r := AddSample(steps, x);
    forall i | 0 <= i < |r|
      ensures r[i].value == minVal + CountAtMost(q + [x], r[i].t)
    {
      CountAtMostAppend(q, x, r[i].t);
      if i == |r| - 1 {
        CountAtMostAll(q, x);
      } else {
        AddSampleKeeps(steps, x, i);
        if i < |steps| - 1 {
          assert steps[i].t < steps[|steps| - 1].t;
        }
      }
    }
  }

  /** One coalescing step keeps every earlier offset and adds the sample's. */
  lemma AddSampleOffsetsKept(steps: seq<OpenSlots>, x: int, i: int)
    requires |steps| >= 1 && 0 <= i < |steps|
    ensures IsOffset(AddSample(steps, x), steps[i].t)
    ensures IsOffset(AddSample(steps, x), x)
  {
    var r := AddSample(steps, x);
    if i < |r| - 1 {
      AddSampleKeeps(steps, x, i);
      assert r[i].t == steps[i].t;
    } else {
      assert r[|r| - 1].t == steps[i].t;
    }
    assert r[|r| - 1].t == x;
  }

  /** The loop body preserves the invariant for a sample that is not
      below any earlier one. */
  lemma AddSampleKeepsCurveOf(minVal: int, steps: seq<OpenSlots>, done: seq<int>, x: int)
    requires CurveOf(minVal, steps, done)
    requires forall j :: 0 <= j < |done| ==> done[j] <= x
    requires x >= 0
    ensures CurveOf(minVal, AddSample(steps, x), done + [x])
  {
    var r := AddSample(steps, x);
    var done' := done + [x];
    assert steps[|steps| - 1].t <= x by {
      if |done| > 0 {
        assert done[|done| - 1] <= x;
      }
    }
    AddSampleOffsets(steps, x);
    AddSampleValues(steps, done, x, minVal);
    assert r[|r| - 1].t == LastOrZero(done');
    forall j | 0 <= j < |done'|
      ensures IsOffset(r, done'[j])
    {
      if j < |done| {
        assert IsOffset(steps, done[j]);
        var i :| 0 <= i < |steps| && steps[i].t == done[j];
        AddSampleOffsetsKept(steps, x, i);
        assert done'[j] == done[j];
      } else {
        AddSampleOffsetsKept(steps, x, 0);
      }
    }
  }

  /** The whole loop establishes the invariant for all samples. */
  lemma {:induction false} CoalesceCurveOf(minVal: int, steps: seq<OpenSlots>, done: seq<int>, rest: seq<int>)
    requires CurveOf(minVal, steps, done)
    requires Ascending(done + rest) && NonNegative(done + rest)
    ensures CurveOf(minVal, Coalesce(steps, rest), done + rest)
    decreases |rest|
  {
    if |rest| == 0 {
      assert done + rest == done;
    } else {
      var x := rest[0];
      assert (done + rest)[|done|] == x;
      forall j | 0 <= j < |done|
        ensures done[j] <= x
      {
        assert (done + rest)[j] == done[j];
      }
      AddSampleKeepsCurveOf(minVal, steps, done, x);
      assert (done + [x]) + rest[1..] == done + rest;
      CoalesceCurveOf(minVal, AddSample(steps, x), done + [x], rest[1..]);
    }
  }

  /** The invariant for a whole ascending, non-negative sample sequence. */
  lemma BuildStepsCurveOf(minVal: int, samples: seq<int>)
    requires Ascending(samples) && NonNegative(samples)
    ensures CurveOf(minVal, BuildSteps(minVal, samples), samples)
  {
    assert CurveOf(minVal, [OpenSlots(0, minVal)], []);
    assert [] + samples == samples;
    CoalesceCurveOf(minVal, [OpenSlots(0, minVal)], [], samples);
  }

  /** Where the scan stops on a curve that covers every sample, no sample
      lies after the stopping step's offset and at or before `e`. */
  lemma NoSampleInGap(steps: seq<OpenSlots>, samples: seq<int>, e: int, stop: int)
    requires StrictlyIncreasingT(steps)
    requires forall j :: 0 <= j < |samples| ==> IsOffset(steps, samples[j])
    requires StopsAt(steps, e, stop)
    ensures forall j :: 0 <= j < |samples| ==> samples[j] <= steps[stop].t || samples[j] > e
  {
    forall j | 0 <= j < |samples|
      ensures samples[j] <= steps[stop].t || samples[j] > e
    {
      assert IsOffset(steps, samples[j]);
      var i :| 0 <= i < |steps| && steps[i].t == samples[j];
      if i > stop {
        assert steps[stop + 1].t <= steps[i].t;
      } else if i < stop {
        assert steps[i].t < steps[stop].t;
      }
    }
  }

  /** Lookup on a coalesced curve of ascending non-negative samples: `e`
      seconds into the week the target is `minVal` plus the number of
      samples at or before `e`. */
  lemma BuildStepsLookup(minVal: int, samples: seq<int>, start: int, e: int)
    requires Ascending(samples) && NonNegative(samples)
    requires e >= 0
    ensures OpenSlotTargetNow(SlotCurve(start, BuildSteps(minVal, samples)), start + e) ==
            minVal + CountAtMost(samples, e)
  {
    var steps := BuildSteps(minVal, samples);
    var curve := SlotCurve(start, steps);
    BuildStepsCurveOf(minVal, samples);
    var stop := ScanStop(curve, start + e);
    assert StopsAt(steps, e, stop);
    assert CountAtMost(samples, steps[stop].t) == CountAtMost(samples, e) by {
      NoSampleInGap(steps, samples, e, stop);
      CountAtMostGap(samples, steps[stop].t, e);
    }
  }

  /** Sorting yields ascending, non-negative samples from non-negative
      ones. */
  lemma SortedSamples(samples: seq<int>)
    requires NonNegative(samples)
    ensures Ascending(SortBy(samples, Identity)) && NonNegative(SortBy(samples, Identity))
    ensures multiset(SortBy(samples, Identity)) == multiset(samples)
  {
    var sorted := SortBy(samples, Identity);
    forall i | 0 <= i < |sorted|
      ensures sorted[i] >= 0
    {
      assert sorted[i] in multiset(samples);
    }
  }

  /** The headline property of a built curve: `e` seconds into the week
      (for any `e >= 0`) the target is `minVal` plus the number of drawn
      samples at or before `e`, whatever order they were drawn in. */
  lemma BuildCurveCounts(samples: seq<int>, minVal: int, start: int, e: int)
    requires NonNegative(samples)
    requires e >= 0
    ensures OpenSlotTargetNow(SlotCurve(start, BuildCurve(samples, minVal)), start + e) ==
            minVal + CountAtMost(samples, e)
  {
    var sorted := SortBy(samples, Identity);
    SortedSamples(samples);
    BuildStepsLookup(minVal, sorted, start, e);
    CountAtMostPermutation(sorted, samples, e);
  }

  /** For non-negative samples the curve's offsets and values both strictly
      increase, so it is a genuine step function. */
  lemma BuildCurveIsStepFunction(samples: seq<int>, minVal: int)
    requires NonNegative(samples)
    ensures StrictlyIncreasingT(BuildCurve(samples, minVal))
    ensures StrictlyIncreasingValues(BuildCurve(samples, minVal))
  {
    SortedSamples(samples);
    BuildStepsCurveOf(minVal, SortBy(samples, Identity));
  }

  /** Once every sample is due, the whole target is open. */
  lemma FullTargetOnceAllDue(samples: seq<int>, minVal: int, start: int, e: int)
    requires NonNegative(samples)
    requires e >= 0 && forall i :: 0 <= i < |samples| ==> samples[i] <= e
    ensures OpenSlotTargetNow(SlotCurve(start, BuildCurve(samples, minVal)), start + e) == minVal + |samples|
  {
    BuildCurveCounts(samples, minVal, start, e);
    CountAtMostAll(samples, e);
  }

  /** Samples of 0 merge into the initial step instead of opening new ones. */
  lemma ZeroSamplesRaiseFirstStep(minVal: int)
    ensures BuildCurve([0, 0], minVal) == [OpenSlots(0, minVal + 2)]
  {
    var sorted := SortBy([0, 0], Identity);
    assert |sorted| == |multiset(sorted)| == 2;
    assert sorted[0] in multiset([0, 0]) && sorted[1] in multiset([0, 0]);
    assert sorted == [0, 0];
    var one := AddSample([OpenSlots(0, minVal)], 0);
    assert one == [OpenSlots(0, minVal + 1)];
    assert AddSample(one, 0) == [OpenSlots(0, minVal + 2)];
    assert Coalesce([OpenSlots(0, minVal)], [0, 0]) == Coalesce(one, [0]);
    assert Coalesce(one, [0]) == Coalesce(AddSample(one, 0), []);
  }

  /** The draw bound `len(data) - 1` excludes the last data row: replacing
      it changes nothing about the result. */
  lemma {:induction false} LastRowNeverDrawnSamples(data: seq<seq<string>>, other: seq<string>, draws: seq<int>)
    requires |data| >= 1
    requires DrawsBelowLast(data, draws)
    ensures DrawSamples(data[..|data| - 1] + [other], draws) == DrawSamples(data, draws)
  {
    var data' := data[..|data| - 1] + [other];
    if |draws| > 0 {
      assert data'[draws[0]] == data[draws[0]];
      LastRowNeverDrawnSamples(data, other, draws[1..]);
    }
  }

  lemma LastRowNeverDrawn(s: Sampler, rows: seq<seq<string>>, other: seq<string>, draws: seq<int>,
                          target: int, minVal: int, now: int)
    requires |rows| >= 3
    requires DrawsFit(rows, draws, target, minVal)
    ensures DrawsFit(rows[..|rows| - 1] + [other], draws, target, minVal)
    ensures InitFromSampleCSV(s, rows[..|rows| - 1] + [other], draws, target, minVal, now) ==
            InitFromSampleCSV(s, rows, draws, target, minVal, now)
  {
    var rows' := rows[..|rows| - 1] + [other];
    var data := rows[1..];
    assert rows'[1..] == data[..|data| - 1] + [other];
    if target >= minVal {
      LastRowNeverDrawnSamples(data, other, draws);
    }
  }
}

=== FILE: decimal.dfy ===
/** Decimal text for integers, as the service produces it with
    `fmt.Sprintf("%d", v)` and reads it back with `strconv.Atoi` on a 64-bit
    platform. */
module Decimal {
  import opened Wrappers

  const MinInt64: int := -0x8000_0000_0000_0000
  const MaxInt64: int := 0x7FFF_FFFF_FFFF_FFFF

  predicate IsDigit(c: char) {
    '0' <= c <= '9'
  }

  predicate AllDigits(s: string) {
    forall i :: 0 <= i < |s| ==> IsDigit(s[i])
  }

  function DigitChar(d: int): (c: char)
    requires 0 <= d < 10
    ensures IsDigit(c)
  {
    (48 + d) as char
  }

  function DigitValue(c: char): (d: int)
    requires IsDigit(c)
    ensures 0 <= d < 10
  {
    c as int - 48
  }

  function Pow10(k: nat): (p: nat)
    ensures p >= 1
  {
    if k == 0 then 1 else 10 * Pow10(k - 1)
  }

  /** `%d` of a non-negative number: digits only, no leading zero. */
  function NatToString(n: nat): (s: string)
    ensures |s| >= 1
    ensures AllDigits(s)
    ensures |s| > 1 ==> s[0] != '0'
  {
    if n < 10 then [DigitChar(n)]
    else NatToString(n / 10) + [DigitChar(n % 10)]
  }

  /** `%d` of any integer: a minus sign before the magnitude when negative. */
  function IntToString(v: int): (s: string)
    ensures v >= 0 ==> AllDigits(s)
    ensures v < 0 ==> |s| >= 2 && s[0] == '-' && AllDigits(s[1..])
  {
    if v < 0 then "-" + NatToString(-v) else NatToString(v)
  }

  /** Value of a digit string, most significant digit first. */
  function DigitsValue(s: string): nat
    requires AllDigits(s)
  {
    if |s| == 0 then 0
    else DigitsValue(s[..|s| - 1]) * 10 + DigitValue(s[|s| - 1])
  }

  /** Reading back what `NatToString` wrote gives the number again. */
  lemma {:induction false} DigitsValueOfNatToString(n: nat)
    ensures DigitsValue(NatToString(n)) == n
  {
    if n >= 10 {
      var s := NatToString(n);
      DigitsValueOfNatToString(n / 10);
      assert s[..|s| - 1] == NatToString(n / 10);
    }
  }

  /** The rendering of `n` has at most `k` digits exactly when `n < 10^k`. */
  lemma {:induction false} NatToStringLength(n: nat, k: nat)
    requires k >= 1
    ensures |NatToString(n)| <= k <==> n < Pow10(k)
  {
    if n >= 10 {
      if k == 1 {
        assert Pow10(1) == 10;
      } else {
        NatToStringLength(n / 10, k - 1);
        assert n / 10 < Pow10(k - 1) <==> n < 10 * Pow10(k - 1);
      }
    } else {
      assert Pow10(k) >= 10 by {
        assert Pow10(k) == 10 * Pow10(k - 1);
      }
    }
  }

  datatype AtoiError = InvalidInt

  /** `strconv.Atoi` on a 64-bit platform: an optional sign, then one or more
      ASCII digits (leading zeros allowed, no underscores), and a value that
      fits in `int64`. Go distinguishes a syntax error from a range error;
      the only caller treats both as fatal, so the model has one error. */
  function Atoi(s: string): (r: Result<int, AtoiError>)
    ensures r.Ok? ==> MinInt64 <= r.value <= MaxInt64
  {
    var signed := |s| > 0 && (s[0] == '-' || s[0] == '+');
    var body := if signed then s[1..] else s;
    if |body| == 0 || !AllDigits(body) then Err(InvalidInt)
    else
      var magnitude: int := DigitsValue(body);
      var v := if |s| > 0 && s[0] == '-' then -magnitude else magnitude;
      if v < MinInt64 || v > MaxInt64 then Err(InvalidInt) else Ok(v)
  }

  /** `Atoi` reads back every `int64` that `%d` renders. */
  lemma AtoiIntToString(v: int)
    requires MinInt64 <= v <= MaxInt64
    ensures Atoi(IntToString(v)) == Ok(v)
  {
    var s := IntToString(v);
    if v < 0 {
      assert s[1..] == NatToString(-v);
      DigitsValueOfNatToString(-v);
    } else {
      DigitsValueOfNatToString(v);
    }
  }

  /** A string that is not a signed digit sequence is rejected. */
  lemma AtoiRejectsNonDigits(s: string, i: nat)
    requires 0 < i < |s| && !IsDigit(s[i])
    ensures Atoi(s).Err?
  {
    if |s| > 0 && (s[0] == '-' || s[0] == '+') {
      assert s[1..][i - 1] == s[i];
    }
  }
}

=== FILE: entry_code_check.dfy ===
/** The entry-code check `validateEntryCodeHandl`: argument validation,
    code normalisation, and a per-uid counter of wrong attempts that is
    cleared when the window has run out. The package-level counter map and
    reset time become one state value threaded through the check; the
    store is the entry-code collection of the study instance. */
module EntryCodeCheck {
  import opened Wrappers
  import opened Collections
  import opened Strings
  import opened CodeFormat
  import opened EntryCodes

  /** A uid with MORE than this many counted wrong attempts is refused. */
  const WrongCodeAttemptLimit: int := 10

  /** Seconds after the last reset at which the counters are cleared. */
  const WindowResetInterval: int := 5 * 60

  /** Length in bytes of a valid uid (a hex object id). */
  const UidLength: int := 24

  datatype LimiterState = LimiterState(wrongChecks: map<string, int>, lastReset: int)

  /** The state at start-up: no counters, last reset at time 0. */
  const InitialState: LimiterState := LimiterState(map[], 0)

  /** What the check answers. The three refusals after validation share one
      response body ("wrong entry code") but are told apart here. */
  datatype Outcome = WrongId | EmptyCode | TooManyAttempts | CodeNotFound | CodeAlreadyUsed | ValidCode

  datatype Check = Check(outcome: Outcome, state: LimiterState)

  /** The counters in force for a request at `now`: cleared, with the reset
      time moved to `now`, once MORE than the interval has passed. Whatever
      the state, the window in force covers `now`, and its counters are the
      previous ones or none at all. */
  function Window(st: LimiterState, now: int): (w: LimiterState)
    ensures now - st.lastReset > WindowResetInterval ==> w.wrongChecks == map[] && w.lastReset == now
    ensures now - st.lastReset <= WindowResetInterval ==> w == st
    ensures now - w.lastReset <= WindowResetInterval
    ensures w.wrongChecks == st.wrongChecks || w.wrongChecks == map[]
    ensures forall u :: u in w.wrongChecks ==> u in st.wrongChecks && w.wrongChecks[u] == st.wrongChecks[u]
  {
    if now - st.lastReset > WindowResetInterval then LimiterState(map[], now) else st
  }

  /** Counted wrong attempts of `uid` (0 when absent). */
  function WrongCount(m: map<string, int>, uid: string): int {
    if uid in m then m[uid] else 0
  }

  /** One more wrong attempt for `uid`: 1 when absent, else one more. */
  function CountWrongAttempt(m: map<string, int>, uid: string): (r: map<string, int>)
    ensures uid in r && r[uid] == WrongCount(m, uid) + 1
    ensures forall u :: u != uid ==> (u in r <==> u in m) && WrongCount(r, u) == WrongCount(m, u)
  {
    if uid in m then m[uid := m[uid] + 1] else m[uid := 1]
  }

  predicate Blocked(m: map<string, int>, uid: string) {
    uid in m && m[uid] > WrongCodeAttemptLimit
  }

  /** A second request at the same moment sees the same window: the reset
      happens once. */
  lemma WindowIsIdempotent(st: LimiterState, now: int)
    ensures Window(Window(st, now), now) == Window(st, now)
  {
  }

  /** `validateEntryCodeHandl`. The uid's length is Go's `len`, in bytes. */
  function ValidateEntryCode(st: LimiterState, uid: string, code: string, now: int, store: seq<ValidationCode>): (r: Check)
    ensures r.outcome == WrongId <==> Utf8Length(uid) != UidLength
    ensures r.outcome == EmptyCode <==> Utf8Length(uid) == UidLength && code == ""
    ensures r.outcome == WrongId || r.outcome == EmptyCode ==> r.state == st
    ensures r.outcome == TooManyAttempts <==>
              Utf8Length(uid) == UidLength && code != "" && Blocked(Window(st, now).wrongChecks, uid)
    ensures r.outcome == CodeNotFound <==>
              Utf8Length(uid) == UidLength && code != "" && !Blocked(Window(st, now).wrongChecks, uid) &&
              FindEntryCodeInfo(store, SanitizeCode(code)).Err?
    ensures r.outcome == ValidCode ==>
              exists i :: 0 <= i < |store| && store[i].code == SanitizeCode(code) && store[i].usedAt <= 0
    ensures r.outcome == ValidCode <==>
              Utf8Length(uid) == UidLength && code != "" && !Blocked(Window(st, now).wrongChecks, uid) &&
              FindEntryCodeInfo(store, SanitizeCode(code)).Ok? && FindEntryCodeInfo(store, SanitizeCode(code)).value.usedAt <= 0
    ensures r.outcome == CodeAlreadyUsed <==>
              Utf8Length(uid) == UidLength && code != "" && !Blocked(Window(st, now).wrongChecks, uid) &&
              FindEntryCodeInfo(store, SanitizeCode(code)).Ok? && FindEntryCodeInfo(store, SanitizeCode(code)).value.usedAt > 0
    ensures r.outcome == TooManyAttempts || r.outcome == ValidCode ==> r.state == Window(st, now)
    ensures r.outcome == CodeNotFound || r.outcome == CodeAlreadyUsed ==>
              r.state.lastReset == Window(st, now).lastReset &&
              r.state.wrongChecks == CountWrongAttempt(Window(st, now).wrongChecks, uid)
  {
    if uid == "" || Utf8Length(uid) != UidLength then Check(WrongId, st)
    else if code == "" then Check(EmptyCode, st)
    else
      var normalised := SanitizeCode(code);
      var w := Window(st, now);
      if Blocked(w.wrongChecks, uid) then Check(TooManyAttempts, w)
      else match FindEntryCodeInfo(store, normalised)
        case Err(_) => Check(CodeNotFound, w.(wrongChecks := CountWrongAttempt(w.wrongChecks, uid)))
        case Ok(info) =>
          if info.usedAt > 0 then Check(CodeAlreadyUsed, w.(wrongChecks := CountWrongAttempt(w.wrongChecks, uid)))
          else Check(ValidCode, w)
  }

  /** A code is accepted exactly when the uid is not blocked and the store
      holds the normalised code unused; accepting it changes no counter. */
  lemma ValidIffUnusedCodeStored(st: LimiterState, uid: string, code: string, now: int, store: seq<ValidationCode>)
    requires Utf8Length(uid) == UidLength && code != ""
    requires UniqueCodes(store)
    ensures ValidateEntryCode(st, uid, code, now, store).outcome == ValidCode <==>
            !Blocked(Window(st, now).wrongChecks, uid) &&
            exists i :: 0 <= i < |store| && FieldEquals(store[i].code, SanitizeCode(code)) && store[i].usedAt <= 0
  {
    if exists i :: 0 <= i < |store| && FieldEquals(store[i].code, SanitizeCode(code)) && store[i].usedAt <= 0 {
      var i :| 0 <= i < |store| && FieldEquals(store[i].code, SanitizeCode(code)) && store[i].usedAt <= 0;
      FindEntryCodeInfoIsTheRecord(store, i);
    }
  }

  /** The counters stay between 1 and one above the limit. */
  predicate CountsBounded(st: LimiterState) {
    forall u :: u in st.wrongChecks ==> 1 <= st.wrongChecks[u] <= WrongCodeAttemptLimit + 1
  }

  lemma CheckKeepsCountsBounded(st: LimiterState, uid: string, code: string, now: int, store: seq<ValidationCode>)
    requires CountsBounded(st)
    ensures CountsBounded(ValidateEntryCode(st, uid, code, now, store).state)
  {
    var r := ValidateEntryCode(st, uid, code, now, store);
    var w := Window(st, now);
    forall u | u in r.state.wrongChecks
      ensures 1 <= r.state.wrongChecks[u] <= WrongCodeAttemptLimit + 1
    {
      if u != uid && (r.outcome == CodeNotFound || r.outcome == CodeAlreadyUsed) {
        assert WrongCount(r.state.wrongChecks, u) == WrongCount(w.wrongChecks, u);
      }
    }
  }

  /** A blocked uid stays blocked, whatever code it sends, until the window
      runs out; the refusal changes nothing. */
  lemma BlockedUntilReset(st: LimiterState, uid: string, code: string, now: int, store: seq<ValidationCode>)
    requires Utf8Length(uid) == UidLength && code != ""
    requires Blocked(st.wrongChecks, uid)
    requires now - st.lastReset <= WindowResetInterval
    ensures ValidateEntryCode(st, uid, code, now, store) == Check(TooManyAttempts, st)
  {
  }

  /** Once the window has run out, no uid is refused for earlier attempts. */
  lemma NewWindowUnblocks(st: LimiterState, uid: string, code: string, now: int, store: seq<ValidationCode>)
    requires now - st.lastReset > WindowResetInterval
    ensures ValidateEntryCode(st, uid, code, now, store).outcome != TooManyAttempts
  {
  }

  /** The separators a participant types do not matter: two spellings of
      the same code get the same answer. */
  lemma SpellingDoesNotMatter(st: LimiterState, uid: string, code1: string, code2: string, now: int, store: seq<ValidationCode>)
    requires code1 != "" && code2 != ""
    requires SanitizeCode(code1) == SanitizeCode(code2)
    ensures ValidateEntryCode(st, uid, code1, now, store) == ValidateEntryCode(st, uid, code2, now, store)
  {
  }

  /** Checking does not consume a code: asking again with the same state
      gives the same acceptance. */
  lemma ValidCheckIsRepeatable(st: LimiterState, uid: string, code: string, now: int, store: seq<ValidationCode>)
    requires ValidateEntryCode(st, uid, code, now, store).outcome == ValidCode
    ensures ValidateEntryCode(ValidateEntryCode(st, uid, code, now, store).state, uid, code, now, store).outcome == ValidCode
  {
  }

  /** The state after `k` checks of the same request at the same time. */
  function AfterAttempts(st: LimiterState, uid: string, code: string, now: int, store: seq<ValidationCode>, k: nat): LimiterState {
    if k == 0 then st
    else ValidateEntryCode(AfterAttempts(st, uid, code, now, store, k - 1), uid, code, now, store).state
  }

  /** Within one window, each check of an unknown code by a fresh uid counts
      one wrong attempt, up to one above the limit. */
  lemma {:induction false} WrongAttemptsAreCounted(st: LimiterState, uid: string, code: string, now: int, store: seq<ValidationCode>, k: nat)
    requires Utf8Length(uid) == UidLength && code != ""
    requires now - st.lastReset <= WindowResetInterval
    requires uid !in st.wrongChecks
    requires FindEntryCodeInfo(store, SanitizeCode(code)).Err?
    requires 1 <= k <= WrongCodeAttemptLimit + 1
    ensures AfterAttempts(st, uid, code, now, store, k) == st.(wrongChecks := st.wrongChecks[uid := k])
  {
    var prev := if k == 1 then st else st.(wrongChecks := st.wrongChecks[uid := k - 1]);
    if k == 1 {
      assert AfterAttempts(st, uid, code, now, store, 0) == prev;
    } else {
      WrongAttemptsAreCounted(st, uid, code, now, store, k - 1);
    }
    UnknownCodeCountsOne(prev, uid, code, now, store);
    if k == 1 {
      assert CountWrongAttempt(prev.wrongChecks, uid) == st.wrongChecks[uid := 1];
    } else {
      assert CountWrongAttempt(prev.wrongChecks, uid) == st.wrongChecks[uid := k - 1][uid := k];
      UpdateTwice(st.wrongChecks, uid, k - 1, k);
    }
  }

  /** A second update of the same key overrides the first. */
  lemma UpdateTwice(m: map<string, int>, key: string, a: int, b: int)
    ensures m[key := a][key := b] == m[key := b]
  {
  }

  /** Inside the window, an unblocked uid checking an unknown code has one
      more wrong attempt counted and nothing else changed. */
  lemma UnknownCodeCountsOne(st: LimiterState, uid: string, code: string, now: int, store: seq<ValidationCode>)
    requires Utf8Length(uid) == UidLength && code != ""
    requires now - st.lastReset <= WindowResetInterval
    requires !Blocked(st.wrongChecks, uid)
    requires FindEntryCodeInfo(store, SanitizeCode(code)).Err?
    ensures ValidateEntryCode(st, uid, code, now, store).state == st.(wrongChecks := CountWrongAttempt(st.wrongChecks, uid))
  {
  }

  /** Eleven wrong attempts get "wrong entry code" after a lookup; the
      twelfth is refused without one. */
  lemma TwelfthAttemptIsRefused(st: LimiterState, uid: string, code: string, now: int, store: seq<ValidationCode>)
    requires Utf8Length(uid) == UidLength && code != ""
    requires now - st.lastReset <= WindowResetInterval
    requires uid !in st.wrongChecks
    requires FindEntryCodeInfo(store, SanitizeCode(code)).Err?
    ensures forall k :: 0 <= k <= WrongCodeAttemptLimit ==>
              ValidateEntryCode(AfterAttempts(st, uid, code, now, store, k), uid, code, now, store).outcome == CodeNotFound
    ensures ValidateEntryCode(AfterAttempts(st, uid, code, now, store, WrongCodeAttemptLimit + 1), uid, code, now, store).outcome ==
            TooManyAttempts
  {
    forall k | 0 <= k <= WrongCodeAttemptLimit
      ensures ValidateEntryCode(AfterAttempts(st, uid, code, now, store, k), uid, code, now, store).outcome == CodeNotFound
    {
      if k > 0 {
        WrongAttemptsAreCounted(st, uid, code, now, store, k);
      }
    }
    WrongAttemptsAreCounted(st, uid, code, now, store, WrongCodeAttemptLimit + 1);
  }

  /** A two-byte letter followed by ASCII text is one byte longer than it
      has characters. */
  lemma TwoByteHeadLength(c: char, t: string)
    requires 0x80 <= c as int < 0x800 && IsAscii(t)
    ensures Utf8Length([c] + t) == |[c] + t| + 1
  {
    assert ([c] + t)[1..] == t;
    Utf8LengthIsCountIffAscii(t);
  }

  /** The uid check counts bytes: a 23-character uid whose first letter
      takes two bytes (such as 'é') and whose rest is ASCII passes it and
      reaches the code lookup. */
  lemma UidLengthCountsBytes(st: LimiterState, c: char, t: string, code: string, now: int, store: seq<ValidationCode>)
    requires 0x80 <= c as int < 0x800 && IsAscii(t) && |t| == UidLength - 2
    ensures |[c] + t| == UidLength - 1
    ensures ValidateEntryCode(st, [c] + t, code, now, store).outcome != WrongId
  {
    TwoByteHeadLength(c, t);
  }
}

=== FILE: entry_codes.dfy ===
/** The entry-code collection of one study instance: records in insertion
    order, a unique index on `code`, and the three queries the service
    issues against it. The store is always reachable here; the clock is a
    `now` parameter. */
module EntryCodes {
  import opened Wrappers
  import opened Collections

  /** `types.ValidationCode`; `code` is stored with `omitempty`. The object
      id the store assigns is not part of the model. */
  datatype ValidationCode = ValidationCode(code: string, uploadedAt: int, usedAt: int, usedBy: string)

  /** The unique index on `code` holds: no two records share an indexed
      value (and so at most one record lacks a code). */
  predicate UniqueCodes(store: seq<ValidationCode>) {
    forall i, j :: 0 <= i < j < |store| ==> IndexedString(store[i].code) != IndexedString(store[j].code)
  }

  /** `AddEntryCode`: insert one record with the code, `uploadedAt = now`
      and `usedAt` left at 0, unless the unique index already holds that
      code. The index stays satisfied, and a non-empty code just added is
      what the lookup then finds. */
  function AddEntryCode(store: seq<ValidationCode>, code: string, now: int): (r: Result<seq<ValidationCode>, StoreError>)
    ensures r.Ok? ==> r.value == store + [ValidationCode(code, now, 0, "")]
    ensures r.Err? <==> exists i :: 0 <= i < |store| && IndexedString(store[i].code) == IndexedString(code)
    ensures r.Err? ==> r.error == DuplicateKey
    ensures r.Ok? && UniqueCodes(store) ==> UniqueCodes(r.value)
    ensures r.Ok? && code != "" ==> FindEntryCodeInfo(r.value, code) == Ok(ValidationCode(code, now, 0, ""))
  {
    if exists i :: 0 <= i < |store| && IndexedString(store[i].code) == IndexedString(code) then Err(DuplicateKey)
    else
      AppendedCodeIsFound(store, code, now);
      Ok(store + [ValidationCode(code, now, 0, "")])
  }

  /** A code no record holds is, once appended, what the lookup finds. */
  lemma AppendedCodeIsFound(store: seq<ValidationCode>, code: string, now: int)
    requires forall i :: 0 <= i < |store| ==> IndexedString(store[i].code) != IndexedString(code)
    ensures code != "" ==> FindEntryCodeInfo(store + [ValidationCode(code, now, 0, "")], code) == Ok(ValidationCode(code, now, 0, ""))
  {
    var added := store + [ValidationCode(code, now, 0, "")];
    if code != "" {
      var r := FindEntryCodeInfo(added, code);
      assert FieldEquals(added[|store|].code, code);
      var k :| 0 <= k < |added| && added[k] == r.value;
    }
  }

  /** `FindEntryCodeInfo`: the first record (in natural order) whose stored
      code equals `code`; `NoDocuments` when there is none. */
  function FindEntryCodeInfo(store: seq<ValidationCode>, code: string): (r: Result<ValidationCode, StoreError>)
    ensures r.Ok? ==> r.value in store && r.value.code == code && code != ""
    ensures r.Err? <==> forall i :: 0 <= i < |store| ==> !FieldEquals(store[i].code, code)
    ensures r.Err? ==> r.error == NoDocuments
  {
    match FirstIndex(store, (v: ValidationCode) => FieldEquals(v.code, code))
    case Some(i) => Ok(store[i])
    case None => Err(NoDocuments)
  }

  /** Under the unique index a non-empty code is stored at one position
      only. */
  lemma CodeOnlyAt(store: seq<ValidationCode>, i: int)
    requires UniqueCodes(store)
    requires 0 <= i < |store| && store[i].code != ""
    ensures forall k :: 0 <= k < |store| && k != i ==> store[k].code != store[i].code
  {
    IndexedKeyOnlyAt(store, (v: ValidationCode) => v.code, i);
  }

  /** Under the unique index, a code matches at most one record, so the
      lookup returns THE record of that code. */
  lemma FindEntryCodeInfoIsTheRecord(store: seq<ValidationCode>, i: int)
    requires UniqueCodes(store)
    requires 0 <= i < |store| && store[i].code != ""
    ensures FindEntryCodeInfo(store, store[i].code) == Ok(store[i])
  {
    CodeOnlyAt(store, i);
  }

  /** An empty code can be stored once (as a record without a code), but no
      lookup ever finds it. */
  lemma EmptyCodeIsNeverFound(store: seq<ValidationCode>)
    ensures FindEntryCodeInfo(store, "").Err?
  {
  }

  /** The filter of `MarkEntryCodeAsUsed`: this code, and `usedAt < 1`. */
  predicate UnusedWithCode(v: ValidationCode, code: string) {
    FieldEquals(v.code, code) && v.usedAt < 1
  }

  /** `MarkEntryCodeAsUsed`: `UpdateOne` sets `usedAt = now` and `usedBy`
      on the first unused record of that code. "not modified" when no record
      matches, and also when the update would leave the record as it was
      (the store counts only real changes). */
  function MarkEntryCodeAsUsed(store: seq<ValidationCode>, code: string, usedBy: string, now: int): (r: Result<seq<ValidationCode>, StoreError>)
    ensures r.Ok? ==> |r.value| == |store|
    ensures r.Ok? ==> exists i :: 0 <= i < |store| && UnusedWithCode(store[i], code) &&
                                 r.value == store[i := store[i].(usedAt := now, usedBy := usedBy)]
    ensures (forall i :: 0 <= i < |store| ==> !UnusedWithCode(store[i], code)) ==> r == Err(NotModified)
    ensures r.Err? ==> r.error == NotModified
  {
    match FirstIndex(store, (v: ValidationCode) => UnusedWithCode(v, code))
    case None => Err(NotModified)
    case Some(i) =>
      var updated := store[i].(usedAt := now, usedBy := usedBy);
      if updated == store[i] then Err(NotModified) else Ok(store[i := updated])
  }

  /** With a real clock (`now >= 1`) the update always changes the matched
      record, so marking fails exactly when no unused record has the code. */
  lemma MarkFailsIffNoUnusedRecord(store: seq<ValidationCode>, code: string, usedBy: string, now: int)
    requires now >= 1
    ensures MarkEntryCodeAsUsed(store, code, usedBy, now).Err? <==>
            forall i :: 0 <= i < |store| ==> !UnusedWithCode(store[i], code)
  {
  }

  /** Marking changes only the record of that code, and keeps the unique
      index satisfied. */
  lemma MarkKeepsOthers(store: seq<ValidationCode>, code: string, usedBy: string, now: int)
    requires UniqueCodes(store)
    requires MarkEntryCodeAsUsed(store, code, usedBy, now).Ok?
    ensures forall j :: 0 <= j < |store| && store[j].code != code ==>
              MarkEntryCodeAsUsed(store, code, usedBy, now).value[j] == store[j]
    ensures UniqueCodes(MarkEntryCodeAsUsed(store, code, usedBy, now).value)
  {
    var marked := MarkEntryCodeAsUsed(store, code, usedBy, now).value;
    var i :| 0 <= i < |store| && UnusedWithCode(store[i], code) &&
             marked == store[i := store[i].(usedAt := now, usedBy := usedBy)];
    assert forall k :: 0 <= k < |store| ==> marked[k].code == store[k].code;
  }

  /** One-time use: once a code has been marked with a real clock, marking
      it again fails, whoever asks and whenever. */
  lemma MarkTwiceFails(store: seq<ValidationCode>, code: string, usedBy: string, now: int, usedBy2: string, now2: int)
    requires UniqueCodes(store)
    requires now >= 1
    requires MarkEntryCodeAsUsed(store, code, usedBy, now).Ok?
    ensures MarkEntryCodeAsUsed(MarkEntryCodeAsUsed(store, code, usedBy, now).value, code, usedBy2, now2) == Err(NotModified)
  {
    var marked := MarkEntryCodeAsUsed(store, code, usedBy, now).value;
    var i :| 0 <= i < |store| && UnusedWithCode(store[i], code) &&
             marked == store[i := store[i].(usedAt := now, usedBy := usedBy)];
    CodeOnlyAt(store, i);
    assert forall k :: 0 <= k < |marked| ==> !UnusedWithCode(marked[k], code);
  }

  /** After marking, the lookup sees the code as used, by whom and when. */
  lemma FindAfterMarkSeesUsed(store: seq<ValidationCode>, code: string, usedBy: string, now: int)
    requires UniqueCodes(store)
    requires MarkEntryCodeAsUsed(store, code, usedBy, now).Ok?
    ensures FindEntryCodeInfo(MarkEntryCodeAsUsed(store, code, usedBy, now).value, code) ==
            Ok(ValidationCode(code, FindEntryCodeInfo(store, code).value.uploadedAt, now, usedBy))
  {
    var marked := MarkEntryCodeAsUsed(store, code, usedBy, now).value;
    var i :| 0 <= i < |store| && UnusedWithCode(store[i], code) &&
             marked == store[i := store[i].(usedAt := now, usedBy := usedBy)];
    FindEntryCodeInfoIsTheRecord(store, i);
    MarkKeepsOthers(store, code, usedBy, now);
    FindEntryCodeInfoIsTheRecord(marked, i);
  }

  /** The records from position `from` on are fresh uploads: each holds a
      code of `codes`, stamped `now`, unused and without a user. */
  predicate UploadedFrom(s: seq<ValidationCode>, from: int, codes: seq<string>, now: int) {
    forall k :: 0 <= k < |s| && from <= k ==> s[k].code in codes && s[k] == ValidationCode(s[k].code, now, 0, "")
  }

  /** Every code of `codes` is held by some record. */
  predicate AllHeld(s: seq<ValidationCode>, codes: seq<string>) {
    forall c :: c in codes ==> exists k :: 0 <= k < |s| && s[k].code == c
  }

  lemma UploadedFromCons(s: seq<ValidationCode>, from: int, codes: seq<string>, now: int)
    requires |codes| > 0 && 0 <= from < |s|
    requires s[from] == ValidationCode(codes[0], now, 0, "")
    requires UploadedFrom(s, from + 1, codes[1..], now)
    ensures UploadedFrom(s, from, codes, now)
  {
    forall k | from + 1 <= k < |s|
      ensures s[k].code in codes
    {
      assert s[k].code in codes[1..];
    }
  }

  lemma UploadedFromTail(s: seq<ValidationCode>, from: int, codes: seq<string>, now: int)
    requires |codes| > 0
    requires UploadedFrom(s, from, codes[1..], now)
    ensures UploadedFrom(s, from, codes, now)
  {
    forall k | 0 <= k < |s| && from <= k
      ensures s[k].code in codes
    {
      assert s[k].code in codes[1..];
    }
  }

  lemma AllHeldCons(s: seq<ValidationCode>, i: int, codes: seq<string>)
    requires |codes| > 0 && 0 <= i < |s| && s[i].code == codes[0]
    requires AllHeld(s, codes[1..])
    ensures AllHeld(s, codes)
  {
    forall c | c in codes
      ensures exists k :: 0 <= k < |s| && s[k].code == c
    {
      if c != codes[0] {
        assert c in codes[1..];
      }
    }
  }

  /** The upload loop: each code in turn is added; a refused insert is
      logged and skipped. Returns the new store and how many were saved:
      the saved records are appended after the old ones, each a code of the
      upload, stamped `now` and unused, and afterwards every uploaded code
      is held by some record, whether newly or already. */
  function UploadEntryCodes(store: seq<ValidationCode>, codes: seq<string>, now: int): (r: (seq<ValidationCode>, int))
    ensures 0 <= r.1 <= |codes|
    ensures |r.0| == |store| + r.1
    ensures r.0[..|store|] == store
    ensures UploadedFrom(r.0, |store|, codes, now)
    ensures AllHeld(r.0, codes)
    ensures UniqueCodes(store) ==> UniqueCodes(r.0)
    decreases |codes|
  {
    if |codes| == 0 then (store, 0)
    else
      match AddEntryCode(store, codes[0], now)
      case Ok(added) =>
        var rest := UploadEntryCodes(added, codes[1..], now);
        assert rest.0[..|store|] == rest.0[..|added|][..|store|];
        assert rest.0[|store|] == added[|store|];
        UploadedFromCons(rest.0, |store|, codes, now);
        AllHeldCons(rest.0, |store|, codes);
        (rest.0, rest.1 + 1)
      case Err(_) =>
        var rest := UploadEntryCodes(store, codes[1..], now);
        var i :| 0 <= i < |store| && IndexedString(store[i].code) == IndexedString(codes[0]);
        assert rest.0[i] == store[i];
        AllHeldCons(rest.0, i, codes);
        UploadedFromTail(rest.0, |store|, codes, now);
        rest
  }

  /** Every code of an upload of distinct, new, non-empty codes is saved,
      and each can then be found. */
  lemma {:induction false} UploadOfFreshCodesSavesAll(store: seq<ValidationCode>, codes: seq<string>, now: int)
    requires forall i :: 0 <= i < |codes| ==> codes[i] != ""
    requires forall i, j :: 0 <= i < j < |codes| ==> codes[i] != codes[j]
    requires forall i, k :: 0 <= i < |codes| && 0 <= k < |store| ==> store[k].code != codes[i]
    ensures UploadEntryCodes(store, codes, now).1 == |codes|
    decreases |codes|
  {
    if |codes| > 0 {
      var added := store + [ValidationCode(codes[0], now, 0, "")];
      assert AddEntryCode(store, codes[0], now) == Ok(added);
      forall i, k | 0 <= i < |codes[1..]| && 0 <= k < |added|
        ensures added[k].code != codes[1..][i]
      {
        assert codes[1..][i] == codes[i + 1];
      }
      UploadOfFreshCodesSavesAll(added, codes[1..], now);
    }
  }
}

=== FILE: event_parse.dfy ===
/** Lookups in a submitted survey response: `FindSurveyItemResponse` over
    the list of item responses, and `FindResponseSlot` over the tree of
    response items, addressed by a dot-separated key. */
module EventParse {
  import opened Wrappers
  import opened Strings

  /** A node of a response tree: its key, its value and its child items. */
  datatype ResponseItem = ResponseItem(key: string, value: string, items: seq<ResponseItem>)

  /** The response to one survey item; `response` is a nil-able pointer in
      the source. */
  datatype SurveyItemResponse = SurveyItemResponse(key: string, response: Option<ResponseItem>)

  datatype ParseError = ResponseItemNotFound | ResponseSlotNotFound

  /** `FindSurveyItemResponse`: the first response, in list order, whose key
      contains `itemKey` as a substring. */
  function FindSurveyItemResponse(responses: seq<SurveyItemResponse>, itemKey: string): (r: Result<SurveyItemResponse, ParseError>)
    ensures r.Ok? ==> r.value in responses && Contains(r.value.key, itemKey)
    ensures r.Err? <==> forall i :: 0 <= i < |responses| ==> !Contains(responses[i].key, itemKey)
    ensures r.Err? ==> r.error == ResponseItemNotFound
  {
    if |responses| == 0 then Err(ResponseItemNotFound)
    else if Contains(responses[0].key, itemKey) then Ok(responses[0])
    else
      var r := FindSurveyItemResponse(responses[1..], itemKey);
      assert r.Ok? ==> r.value in responses by {
        if r.Ok? {
          assert r.value in responses[1..];
        }
      }
      r
  }

  /** The response found is the FIRST match: every earlier key misses. */
  lemma {:induction false} FindSurveyItemResponseIsFirst(responses: seq<SurveyItemResponse>, itemKey: string, i: int)
    requires 0 <= i < |responses| && Contains(responses[i].key, itemKey)
    requires forall j :: 0 <= j < i ==> !Contains(responses[j].key, itemKey)
    ensures FindSurveyItemResponse(responses, itemKey) == Ok(responses[i])
  {
    if i > 0 {
      FindSurveyItemResponseIsFirst(responses[1..], itemKey, i - 1);
    }
  }

  /** Matching is by substring: looking for `Q1` returns the earlier item
      `T.Q10` rather than `T.Q1`. */
  lemma SubstringMatchTakesEarlierItem()
    ensures FindSurveyItemResponse([SurveyItemResponse("T.Q10", None), SurveyItemResponse("T.Q1", None)], "Q1") ==
            Ok(SurveyItemResponse("T.Q10", None))
  {
    var key: string := "T.Q10";
    assert OccursAt(key, "Q1", 2);
    ContainsIffOccurs(key, "Q1");
  }

  function Last(parts: seq<string>): string
    requires |parts| >= 1
  {
    parts[|parts| - 1]
  }

  /** The key the recursive call receives: the segments after the first,
      joined again with dots. It splits back into exactly those segments, so
      recursing on the key is recursing on the remaining segments. */
  function RestOfKey(slotKey: string): (rest: string)
    requires |Split(slotKey, '.')| > 1
    ensures |rest| < |slotKey|
    ensures Split(rest, '.') == Split(slotKey, '.')[1..]
  {
    var parts := Split(slotKey, '.');
    JoinSplit(slotKey, '.');
    SplitJoin(parts[1..], '.');
    Join(parts[1..], '.')
  }

  /** A key of one segment is that segment. */
  lemma SingleSegment(slotKey: string)
    requires |Split(slotKey, '.')| == 1
    ensures Split(slotKey, '.') == [slotKey]
  {
    JoinSplit(slotKey, '.');
  }

  /** `FindResponseSlot`: split the key at dots and search by segments. */
  function FindResponseSlot(root: ResponseItem, slotKey: string): (r: Result<ResponseItem, ParseError>)
    ensures |Split(slotKey, '.')| == 1 ==> (r.Ok? <==> root.key == slotKey) && (r.Ok? ==> r.value == root)
    ensures |Split(slotKey, '.')| > 1 ==> r == FindInItems(root.items, Split(RestOfKey(slotKey), '.'))
    ensures r.Ok? ==> r.value.key == Last(Split(slotKey, '.'))
  {
    var parts := Split(slotKey, '.');
    if |parts| == 1 then SingleSegment(slotKey); FindSlotPath(root, parts)
    else
      var rest := RestOfKey(slotKey);
      FindSlotPath(root, parts)
  }

  /** The search for the segments `parts`. With a single segment the root
      itself must carry that key. With several, the FIRST SEGMENT IS NOT
      COMPARED with the root: each child in turn is searched with the
      remaining segments, and the first success is returned. */
  function FindSlotPath(root: ResponseItem, parts: seq<string>): (r: Result<ResponseItem, ParseError>)
    requires |parts| >= 1
    ensures |parts| == 1 ==> (r.Ok? <==> root.key == parts[0]) && (r.Ok? ==> r.value == root)
    ensures r.Ok? ==> r.value.key == Last(parts)
    ensures r.Err? ==> r.error == ResponseSlotNotFound
    decreases |parts|, 0, 0
  {
    if |parts| > 1 then FindInItems(root.items, parts[1..])
    else if root.key == parts[0] then Ok(root)
    else Err(ResponseSlotNotFound)
  }

  /** The loop over the children: the first child in which the search for
      `parts` succeeds. */
  function FindInItems(items: seq<ResponseItem>, parts: seq<string>): (r: Result<ResponseItem, ParseError>)
    requires |parts| >= 1
    ensures r.Ok? ==> r.value.key == Last(parts)
    ensures r.Err? ==> r.error == ResponseSlotNotFound
    decreases |parts|, 1, |items|
  {
    if |items| == 0 then Err(ResponseSlotNotFound)
    else match FindSlotPath(items[0], parts)
      case Ok(found) => Ok(found)
      case Err(_) => FindInItems(items[1..], parts)
  }

  /** Reference meaning: the descendants of `root` exactly `d` levels below
      it, left to right. */
  function NodesAtDepth(root: ResponseItem, d: nat): seq<ResponseItem>
    decreases d, 0, 0
  {
    if d == 0 then [root] else ItemsAtDepth(root.items, d - 1)
  }

  function ItemsAtDepth(items: seq<ResponseItem>, d: nat): seq<ResponseItem>
    decreases d, 1, |items|
  {
    if |items| == 0 then []
    else NodesAtDepth(items[0], d) + ItemsAtDepth(items[1..], d)
  }

  /** The first node of `nodes` whose key is `key`. */
  function FirstWithKey(nodes: seq<ResponseItem>, key: string): (r: Result<ResponseItem, ParseError>)
    ensures r.Ok? ==> r.value in nodes && r.value.key == key
    ensures r.Err? <==> forall i :: 0 <= i < |nodes| ==> nodes[i].key != key
    ensures r.Err? ==> r.error == ResponseSlotNotFound
  {
    if |nodes| == 0 then Err(ResponseSlotNotFound)
    else if nodes[0].key == key then Ok(nodes[0])
    else
      var r := FirstWithKey(nodes[1..], key);
      assert r.Ok? ==> r.value in nodes by {
        if r.Ok? {
          assert r.value in nodes[1..];
        }
      }
      r
  }

  lemma {:induction false} FirstWithKeyAppend(a: seq<ResponseItem>, b: seq<ResponseItem>, key: string)
    ensures FirstWithKey(a + b, key) == if FirstWithKey(a, key).Ok? then FirstWithKey(a, key) else FirstWithKey(b, key)
  {
    if |a| > 0 {
      assert (a + b)[1..] == a[1..] + b;
      FirstWithKeyAppend(a[1..], b, key);
    } else {
      assert a + b == b;
    }
  }

  /** What the search finds: for `k` segments, the first node (left to
      right) exactly `k - 1` levels below the root whose key is the last
      segment; an error exactly when there is none. */
  lemma {:induction false} SlotPathIsFirstAtDepth(root: ResponseItem, parts: seq<string>)
    requires |parts| >= 1
    ensures FindSlotPath(root, parts) == FirstWithKey(NodesAtDepth(root, |parts| - 1), Last(parts))
    decreases |parts|, 0, 0
  {
    if |parts| > 1 {
      ItemsAreFirstAtDepth(root.items, parts[1..]);
    }
  }

  lemma {:induction false} ItemsAreFirstAtDepth(items: seq<ResponseItem>, parts: seq<string>)
    requires |parts| >= 1
    ensures FindInItems(items, parts) == FirstWithKey(ItemsAtDepth(items, |parts| - 1), Last(parts))
    decreases |parts|, 1, |items|
  {
    if |items| > 0 {
      var d, key := |parts| - 1, Last(parts);
      var here, later := NodesAtDepth(items[0], d), ItemsAtDepth(items[1..], d);
      SlotPathIsFirstAtDepth(items[0], parts);
      ItemsAreFirstAtDepth(items[1..], parts);
      FirstWithKeyAppend(here, later, key);
      assert ItemsAtDepth(items, d) == here + later;
      assert FindInItems(items, parts) ==
             if FirstWithKey(here, key).Ok? then FirstWithKey(here, key) else FirstWithKey(later, key);
    }
  }

  /** `FindResponseSlot` finds, for a key of `k` segments, the first node
      exactly `k - 1` levels below the root whose key is the last segment. */
  lemma SlotIsFirstAtDepth(root: ResponseItem, slotKey: string)
    ensures FindResponseSlot(root, slotKey) ==
            FirstWithKey(NodesAtDepth(root, |Split(slotKey, '.')| - 1), Last(Split(slotKey, '.')))
  {
    SlotPathIsFirstAtDepth(root, Split(slotKey, '.'));
  }

  /** The root's key never matters for a key of several segments: any other
      dot-free first segment gives the same answer. */
  lemma FirstSegmentNeverCompared(root: ResponseItem, first: string, other: string, rest: string)
    requires '.' !in first && '.' !in other
    ensures FindResponseSlot(root, first + "." + rest) == FindResponseSlot(root, other + "." + rest)
  {
    SplitAfterPiece(first, '.', rest);
    SplitAfterPiece(other, '.', rest);
    assert Split(first + "." + rest, '.')[1..] == Split(rest, '.');
    assert Split(other + "." + rest, '.')[1..] == Split(rest, '.');
  }

  /** Concretely: the slot `rg.scg` is found in a child of a root whose key
      is not `rg` at all. */
  lemma RootKeyIgnoredExample()
    ensures FindResponseSlot(ResponseItem("other", "", [ResponseItem("scg", "1", [])]), "rg.scg") ==
            Ok(ResponseItem("scg", "1", []))
  {
    SplitAfterPiece("rg", '.', "scg");
    SplitNoSeparator("scg", '.');
    assert "rg" + "." + "scg" == "rg.scg";
    assert Split("rg.scg", '.') == ["rg", "scg"];
  }
}

=== FILE: invitations.dfy ===
/** Sending control invitations (`igasonderzoekSendControlInvitations`,
    `streptokidsSendControlInvitations`): for each requested contact, skip
    it when it cannot be found or is already invited, otherwise store a new
    control code (up to ten random draws, retrying on a taken code), send
    the invitation and mark the contact invited. The random draws and
    whether the message went out are parameters; the message text is not
    modelled. */
module Invitations {
  import opened Wrappers
  import opened Collections
  import opened Decimal
  import opened CodeFormat
  import opened ControlContacts
  import opened ControlCodes

  /** Insert attempts per contact: the retry loop runs `i` from 0 to 9. */
  const InsertAttempts: nat := 10

  predicate DrawsInRange(draws: seq<int>) {
    forall i :: 0 <= i < |draws| ==> 0 <= draws[i] < CodeDrawBound
  }

  /** The code of a draw as `generateRandomCode` makes it, as stored. */
  function DrawnCode(draw: int): string
    requires 0 <= draw < CodeDrawBound
  {
    RandomCodeToString(GenerateRandomCode(draw), false)
  }

  /** The draw is in range and the insert of its code would be accepted. */
  predicate Insertable(codes: seq<ControlCode>, draw: int) {
    0 <= draw < CodeDrawBound && !CodeTaken(codes, DrawnCode(draw))
  }

  /** The retry loop from attempt `i` on, as written: the draw's code is
      inserted; a refused insert moves on to the next attempt, and after
      the last attempt the loop ends with the last code drawn, stored or
      not. Returns the code's numeric value and the code store. */
  function InsertFrom(codes: seq<ControlCode>, draws: seq<int>, now: int, i: nat): (r: (int, seq<ControlCode>))
    requires |draws| == InsertAttempts && DrawsInRange(draws) && i < |draws|
    ensures forall k ::
              (i <= k < |draws| && Insertable(codes, draws[k]) && forall j :: i <= j < k ==> !Insertable(codes, draws[j])) ==>
              r == (GenerateRandomCode(draws[k]), codes + [ControlCode(DrawnCode(draws[k]), now)])
    ensures (forall j :: i <= j < |draws| ==> !Insertable(codes, draws[j])) ==>
              r == (GenerateRandomCode(draws[|draws| - 1]), codes)
    decreases |draws| - i
  {
    var value := GenerateRandomCode(draws[i]);
    match AddControlCode(codes, RandomCodeToString(value, false), now)
    case Ok(stored) => (value, stored)
    case Err(_) =>
      if i + 1 == |draws| then (value, codes)
      else InsertFrom(codes, draws, now, i + 1)
  }

  /** The retry loop as written, over the ten draws of one contact: the
      first draw whose insert is accepted gives the code, which is then
      stored; when all ten inserts fail the loop ends anyway and the LAST
      code drawn is used, although the store already holds it. */
  function IssueCodeAsWritten(codes: seq<ControlCode>, draws: seq<int>, now: int): (r: (int, seq<ControlCode>))
    requires |draws| == InsertAttempts && DrawsInRange(draws)
    ensures exists k :: 0 <= k < |draws| && r.0 == GenerateRandomCode(draws[k])
    ensures !CodeTaken(codes, RandomCodeToString(r.0, false)) ==>
              r.1 == codes + [ControlCode(RandomCodeToString(r.0, false), now)]
    ensures CodeTaken(codes, RandomCodeToString(r.0, false)) ==> r.1 == codes
    ensures (forall j :: 0 <= j < |draws| ==> !Insertable(codes, draws[j])) ==>
              r == (GenerateRandomCode(draws[InsertAttempts - 1]), codes)
  {
    InsertFromUsesADraw(codes, draws, now);
    InsertFrom(codes, draws, now, 0)
  }

  /** The loop ends with one of the drawn codes, stored exactly when it was
      free. */
  lemma InsertFromUsesADraw(codes: seq<ControlCode>, draws: seq<int>, now: int)
    requires |draws| == InsertAttempts && DrawsInRange(draws)
    ensures var r := InsertFrom(codes, draws, now, 0);
            (exists k :: 0 <= k < |draws| && r.0 == GenerateRandomCode(draws[k])) &&
            (!CodeTaken(codes, RandomCodeToString(r.0, false)) ==>
               r.1 == codes + [ControlCode(RandomCodeToString(r.0, false), now)]) &&
            (CodeTaken(codes, RandomCodeToString(r.0, false)) ==> r.1 == codes)
  {
    var r := InsertFrom(codes, draws, now, 0);
    match FirstIndex(draws, (d: int) => Insertable(codes, d))
    case Some(first) =>
      assert r == (GenerateRandomCode(draws[first]), codes + [ControlCode(DrawnCode(draws[first]), now)]);
    case None =>
      assert r == (GenerateRandomCode(draws[|draws| - 1]), codes);
      assert !Insertable(codes, draws[|draws| - 1]);
  }

  /** When all ten draws hit stored codes, the code handed out is one that
      the store already holds for someone else, and nothing new is stored. */
  lemma AllCollisionsReuseTakenCode(codes: seq<ControlCode>, draws: seq<int>, now: int)
    requires |draws| == InsertAttempts && DrawsInRange(draws)
    requires forall i :: 0 <= i < |draws| ==> CodeTaken(codes, DrawnCode(draws[i]))
    ensures CodeTaken(codes, RandomCodeToString(IssueCodeAsWritten(codes, draws, now).0, false))
    ensures IssueCodeAsWritten(codes, draws, now).1 == codes
  {
    assert !Insertable(codes, draws[InsertAttempts - 1]);
  }

  /** Concretely: with code "7" stored and ten draws of 7, the invitation
      carries the stored code "7". */
  lemma TenCollisionsExample(now: int)
    ensures IssueCodeAsWritten([ControlCode("7", 0)], seq(10, _ => 7), now) == (7, [ControlCode("7", 0)])
  {
    var codes := [ControlCode("7", 0)];
    var draws := seq(10, _ => 7);
    assert DrawnCode(7) == "7";
    assert IndexedString(codes[0].code) == IndexedString("7");
    AllCollisionsReuseTakenCode(codes, draws, now);
  }

  datatype IssueError = AllCodesTaken

  /** The code of a twelve digit draw, as stored. */
  function TwelveDigitCodeString(draw: int): string
    requires 0 <= draw < CodeDrawBound
  {
    RandomCodeToString(GenerateTwelveDigitCode(draw), false)
  }

  /** The draw is in range and its code is not yet in the store. */
  predicate FreeDraw(codes: seq<ControlCode>, draw: int) {
    0 <= draw < CodeDrawBound && !CodeTaken(codes, TwelveDigitCodeString(draw))
  }

  /** The evidently intended retry loop: twelve digit codes, inserts tried
      in draw order until one is accepted, and running out of attempts is
      an error rather than a silently reused code. */
  function IssueCode(codes: seq<ControlCode>, draws: seq<int>, now: int): (r: Result<(int, seq<ControlCode>), IssueError>)
    requires |draws| == InsertAttempts && DrawsInRange(draws)
    ensures r.Ok? ==> 100000000000 <= r.value.0 < 999999999999
    ensures r.Ok? ==> !CodeTaken(codes, RandomCodeToString(r.value.0, false)) &&
                      r.value.1 == codes + [ControlCode(RandomCodeToString(r.value.0, false), now)]
    ensures r.Ok? ==> exists k :: 0 <= k < |draws| && r.value.0 == GenerateTwelveDigitCode(draws[k]) &&
                                  forall j :: 0 <= j < k ==> !FreeDraw(codes, draws[j])
    ensures r.Err? <==> forall i :: 0 <= i < |draws| ==> !FreeDraw(codes, draws[i])
  {
    match FirstIndex(draws, (d: int) => FreeDraw(codes, d))
    case None => Err(AllCodesTaken)
    case Some(k) =>
      var value := GenerateTwelveDigitCode(draws[k]);
      Ok((value, AddControlCode(codes, RandomCodeToString(value, false), now).value))
  }

  /** The attempts stop at the first free draw: its code is the one
      issued, whatever the later draws are. */
  lemma IssueCodeTakesFirstFreeDraw(codes: seq<ControlCode>, draws: seq<int>, now: int, k: int)
    requires |draws| == InsertAttempts && DrawsInRange(draws)
    requires 0 <= k < |draws| && FreeDraw(codes, draws[k])
    requires forall j :: 0 <= j < k ==> !FreeDraw(codes, draws[j])
    ensures IssueCode(codes, draws, now) ==
            Ok((GenerateTwelveDigitCode(draws[k]), codes + [ControlCode(TwelveDigitCodeString(draws[k]), now)]))
  {
    FirstIndexOf(draws, (d: int) => FreeDraw(codes, d), k);
  }

  /** An issued code is stored once and only once: the store's unique
      index still holds. */
  lemma IssuedCodeKeepsUnique(codes: seq<ControlCode>, draws: seq<int>, now: int)
    requires |draws| == InsertAttempts && DrawsInRange(draws) && UniqueCodes(codes)
    requires IssueCode(codes, draws, now).Ok?
    ensures UniqueCodes(IssueCode(codes, draws, now).value.1)
  {
    var v := IssueCode(codes, draws, now).value.0;
    assert AddControlCode(codes, RandomCodeToString(v, false), now).Ok?;
  }

  /** What one turn of the invitation loop did with a contact. `NoFreeCode`
      is reached only by the corrected step. */
  datatype InviteOutcome = ContactNotFound | AlreadyInvited | NoFreeCode | NotDelivered | Invited(code: string, codePretty: string)

  datatype InviteState = InviteState(contacts: seq<ControlRegistration>, codes: seq<ControlCode>)

  datatype InviteStep = InviteStep(outcome: InviteOutcome, state: InviteState)

  /** The contacts differ at most in their invitation times. */
  predicate SameContactsUpToInvitation(before: seq<ControlRegistration>, after: seq<ControlRegistration>) {
    |after| == |before| &&
    forall i :: 0 <= i < |before| ==> after[i].(invitedAt := before[i].invitedAt) == before[i]
  }

  /** The code store only grew, by at most `n` records. */
  predicate CodesGrewBy(before: seq<ControlCode>, after: seq<ControlCode>, n: int) {
    |before| <= |after| <= |before| + n && after[..|before|] == before
  }

  /** One turn of the invitation loop as written, for the contact with
      object id `id`: an unknown or already invited contact is skipped;
      otherwise the retry loop runs, and when the message goes out
      (`delivered`: composed and sent) the contact is counted and marked,
      whichever code the loop ended with. */
  function InviteContact(st: InviteState, id: string, draws: seq<int>, now: int, delivered: bool): (r: InviteStep)
    requires |draws| == InsertAttempts && DrawsInRange(draws)
    ensures r.outcome == ContactNotFound <==> FindOneControlContact(st.contacts, id).Err?
    ensures r.outcome == AlreadyInvited <==>
              FindOneControlContact(st.contacts, id).Ok? && FindOneControlContact(st.contacts, id).value.invitedAt > 0
    ensures r.outcome.Invited? <==>
              FindOneControlContact(st.contacts, id).Ok? && FindOneControlContact(st.contacts, id).value.invitedAt <= 0 && delivered
    ensures r.outcome != NoFreeCode
    ensures r.outcome == ContactNotFound || r.outcome == AlreadyInvited ==> r.state == st
    ensures r.outcome == NotDelivered ==> r.state.contacts == st.contacts
    ensures SameContactsUpToInvitation(st.contacts, r.state.contacts)
    ensures CodesGrewBy(st.codes, r.state.codes, 1)
    ensures |r.state.codes| > |st.codes| ==> exists k :: 0 <= k < |draws| && r.state.codes[|st.codes|] == ControlCode(DrawnCode(draws[k]), now)
    ensures r.outcome.Invited? ==>
              (exists k :: 0 <= k < |draws| && r.outcome.code == DrawnCode(draws[k])) &&
              SanitizeCode(r.outcome.codePretty) == r.outcome.code &&
              (!CodeTaken(st.codes, r.outcome.code) ==> r.state.codes == st.codes + [ControlCode(r.outcome.code, now)]) &&
              (CodeTaken(st.codes, r.outcome.code) ==> r.state.codes == st.codes) &&
              FindOneControlContact(r.state.contacts, id) == Ok(FindOneControlContact(st.contacts, id).value.(invitedAt := now))
    ensures r.outcome.Invited? ==> r.state.contacts == MarkControlContactInvited(st.contacts, id, now).value
    ensures forall i :: 0 <= i < |st.contacts| && i < |r.state.contacts| && st.contacts[i].id != LowerHex(id) ==>
              r.state.contacts[i] == st.contacts[i]
  {
    match FindOneControlContact(st.contacts, id)
    case Err(_) => InviteStep(ContactNotFound, st)
    case Ok(contact) =>
      if contact.invitedAt > 0 then InviteStep(AlreadyInvited, st)
      else
        var (value, codes) := IssueCodeAsWritten(st.codes, draws, now);
        var code, pretty := RandomCodeToString(value, false), RandomCodeToString(value, true);
        IssuedCodeIsAppended(st.codes, draws, now);
        MarkChangesOnlyInvitation(st.contacts, id, now);
        if !delivered then InviteStep(NotDelivered, st.(codes := codes))
        else
          PrettyCodeRoundTrip(value);
          FindAfterMarkSeesInvited(st.contacts, id, now);
          InviteStep(Invited(code, pretty), InviteState(MarkControlContactInvited(st.contacts, id, now).value, codes))
  }

  /** The loop as written appends at most one record, a drawn code. */
  lemma IssuedCodeIsAppended(codes: seq<ControlCode>, draws: seq<int>, now: int)
    requires |draws| == InsertAttempts && DrawsInRange(draws)
    ensures CodesGrewBy(codes, IssueCodeAsWritten(codes, draws, now).1, 1)
    ensures var after := IssueCodeAsWritten(codes, draws, now).1;
            |after| > |codes| ==> exists k :: 0 <= k < |draws| && after[|codes|] == ControlCode(DrawnCode(draws[k]), now)
  {
    var r := IssueCodeAsWritten(codes, draws, now);
    assert (codes + [ControlCode(RandomCodeToString(r.0, false), now)])[..|codes|] == codes;
  }

  /** Marking a contact changes nothing but invitation times. */
  lemma MarkChangesOnlyInvitation(contacts: seq<ControlRegistration>, id: string, now: int)
    requires IsObjectIdHex(id)
    ensures SameContactsUpToInvitation(contacts, MarkControlContactInvited(contacts, id, now).value)
  {
  }

  /** When every draw collides, a contact that receives the message is
      counted and marked invited with a code the store already holds for
      someone else, and no code is stored for it. */
  lemma AllCollisionsStillInvite(st: InviteState, id: string, draws: seq<int>, now: int)
    requires |draws| == InsertAttempts && DrawsInRange(draws)
    requires FindOneControlContact(st.contacts, id).Ok? && FindOneControlContact(st.contacts, id).value.invitedAt <= 0
    requires forall i :: 0 <= i < |draws| ==> CodeTaken(st.codes, DrawnCode(draws[i]))
    ensures InviteContact(st, id, draws, now, true).outcome.Invited?
    ensures CodeTaken(st.codes, InviteContact(st, id, draws, now, true).outcome.code)
    ensures InviteContact(st, id, draws, now, true).state.codes == st.codes
  {
    AllCollisionsReuseTakenCode(st.codes, draws, now);
  }

  /** A contact invited with a real clock is skipped by every later turn. */
  lemma NoSecondInvitation(st: InviteState, id: string, draws: seq<int>, now: int, draws2: seq<int>, now2: int, delivered2: bool)
    requires |draws| == InsertAttempts && DrawsInRange(draws)
    requires |draws2| == InsertAttempts && DrawsInRange(draws2)
    requires now >= 1
    requires InviteContact(st, id, draws, now, true).outcome.Invited?
    ensures InviteContact(InviteContact(st, id, draws, now, true).state, id, draws2, now2, delivered2).outcome == AlreadyInvited
  {
  }

  /** The evidently intended turn: twelve-digit codes from the corrected
      retry loop, and a contact for whom no code could be stored is given
      up with nothing changed. */
  function InviteContactIntended(st: InviteState, id: string, draws: seq<int>, now: int, delivered: bool): (r: InviteStep)
    requires |draws| == InsertAttempts && DrawsInRange(draws)
    ensures r.outcome == ContactNotFound <==> FindOneControlContact(st.contacts, id).Err?
    ensures r.outcome == AlreadyInvited <==>
              FindOneControlContact(st.contacts, id).Ok? && FindOneControlContact(st.contacts, id).value.invitedAt > 0
    ensures r.outcome == NoFreeCode <==>
              FindOneControlContact(st.contacts, id).Ok? && FindOneControlContact(st.contacts, id).value.invitedAt <= 0 &&
              IssueCode(st.codes, draws, now).Err?
    ensures r.outcome.Invited? <==>
              FindOneControlContact(st.contacts, id).Ok? && FindOneControlContact(st.contacts, id).value.invitedAt <= 0 &&
              IssueCode(st.codes, draws, now).Ok? && delivered
    ensures r.outcome in {ContactNotFound, AlreadyInvited, NoFreeCode} ==> r.state == st
    ensures r.outcome == NotDelivered ==>
              r.state.contacts == st.contacts && IssueCode(st.codes, draws, now).Ok? &&
              r.state.codes == IssueCode(st.codes, draws, now).value.1 && |r.state.codes| == |st.codes| + 1
    ensures r.outcome.Invited? ==>
              |r.outcome.code| == 12 && SanitizeCode(r.outcome.codePretty) == r.outcome.code &&
              !CodeTaken(st.codes, r.outcome.code) &&
              r.state.codes == st.codes + [ControlCode(r.outcome.code, now)] &&
              FindOneControlContact(r.state.contacts, id) == Ok(FindOneControlContact(st.contacts, id).value.(invitedAt := now))
    ensures r.outcome.Invited? ==> r.state.contacts == MarkControlContactInvited(st.contacts, id, now).value
    ensures SameContactsUpToInvitation(st.contacts, r.state.contacts)
    ensures forall i :: 0 <= i < |st.contacts| && i < |r.state.contacts| && st.contacts[i].id != LowerHex(id) ==>
              r.state.contacts[i] == st.contacts[i]
  {
    match FindOneControlContact(st.contacts, id)
    case Err(_) => InviteStep(ContactNotFound, st)
    case Ok(contact) =>
      if contact.invitedAt > 0 then InviteStep(AlreadyInvited, st)
      else match IssueCode(st.codes, draws, now)
        case Err(_) => InviteStep(NoFreeCode, st)
        case Ok((value, codes)) =>
          var code, pretty := RandomCodeToString(value, false), RandomCodeToString(value, true);
          MarkChangesOnlyInvitation(st.contacts, id, now);
          if !delivered then InviteStep(NotDelivered, st.(codes := codes))
          else
            PrettyCodeRoundTrip(value);
            FindAfterMarkSeesInvited(st.contacts, id, now);
            InviteStep(Invited(code, pretty), InviteState(MarkControlContactInvited(st.contacts, id, now).value, codes))
  }

  /** With the corrected loop every code handed out is stored once: the
      unique index keeps holding and no invitation reuses a stored code. */
  lemma IntendedInvitationKeepsCodesUnique(st: InviteState, id: string, draws: seq<int>, now: int, delivered: bool)
    requires |draws| == InsertAttempts && DrawsInRange(draws)
    requires UniqueCodes(st.codes)
    ensures UniqueCodes(InviteContactIntended(st, id, draws, now, delivered).state.codes)
  {
    if IssueCode(st.codes, draws, now).Ok? {
      IssuedCodeKeepsUnique(st.codes, draws, now);
    }
  }

  /** How many of the messages went out. */
  function CountDelivered(delivered: seq<bool>): (n: nat)
    ensures n <= |delivered|
  {
    if |delivered| == 0 then 0 else (if delivered[0] then 1 else 0) + CountDelivered(delivered[1..])
  }

  predicate AttemptsForEach(draws: seq<seq<int>>) {
    forall i :: 0 <= i < |draws| ==> |draws[i]| == InsertAttempts && DrawsInRange(draws[i])
  }

  /** The whole loop over the requested ids, as written: how many
      invitations went out, and the resulting stores. Only messages that
      went out are counted, only invitation times change, and each id adds
      at most one code. */
  function SendControlInvitations(st: InviteState, ids: seq<string>, draws: seq<seq<int>>, delivered: seq<bool>, now: int): (r: (int, InviteState))
    requires |draws| == |ids| && |delivered| == |ids|
    requires AttemptsForEach(draws)
    ensures 0 <= r.0 <= CountDelivered(delivered) <= |ids|
    ensures SameContactsUpToInvitation(st.contacts, r.1.contacts)
    ensures CodesGrewBy(st.codes, r.1.codes, |ids|)
    decreases |ids|
  {
    if |ids| == 0 then (0, st)
    else
      var step := InviteContact(st, ids[0], draws[0], now, delivered[0]);
      var rest := SendControlInvitations(step.state, ids[1..], draws[1..], delivered[1..], now);
      assert rest.1.codes[..|st.codes|] == rest.1.codes[..|step.state.codes|][..|st.codes|];
      if step.outcome.Invited? then (rest.0 + 1, rest.1) else rest
  }

  /** Listing the same contact twice sends it at most one invitation. */
  lemma RepeatedIdInvitedOnce(st: InviteState, id: string, draws: seq<seq<int>>, delivered: seq<bool>, now: int)
    requires |draws| == 2 && |delivered| == 2
    requires AttemptsForEach(draws)
    requires now >= 1
    ensures SendControlInvitations(st, [id, id], draws, delivered, now).0 <= 1
  {
    var first := InviteContact(st, id, draws[0], now, delivered[0]);
    if first.outcome.Invited? {
      NoSecondInvitation(st, id, draws[0], now, draws[1], now, delivered[1]);
    }
    assert [id, id][1..] == [id];
  }
}

=== FILE: request_guards.dfy ===
/** Request guards that both study handlers declare identically:
    `hasAllowedReferer`, `HasRole` and `ExtractToken`. The environment
    variable holding the referer allow-list (a different one per study) is a
    parameter; gin's abort/next becomes a boolean or a `Result`. */
module RequestGuards {
  import opened Wrappers
  import opened Strings

  /** True when some entry of `refs` is a prefix of `referer`, scanning the
      list in order like the handler's loop. */
  function AnyPrefixOf(refs: seq<string>, referer: string): (r: bool)
    ensures r <==> exists i :: 0 <= i < |refs| && HasPrefix(referer, refs[i])
  {
    if |refs| == 0 then false
    else HasPrefix(referer, refs[0]) || AnyPrefixOf(refs[1..], referer)
  }

  /** `hasAllowedReferer`: the allow-list is the comma-separated value of the
      study's environment variable. */
  function HasAllowedReferer(allowList: string, referer: string): (r: bool)
    ensures r ==> exists i :: 0 <= i < |Split(allowList, ',')| && HasPrefix(referer, Split(allowList, ',')[i])
    ensures r <== exists i :: 0 <= i < |Split(allowList, ',')| && HasPrefix(referer, Split(allowList, ',')[i])
  {
    AnyPrefixOf(Split(allowList, ','), referer)
  }

  /** An unset or empty allow-list splits to one empty entry, which is a
      prefix of everything: every referer is accepted. */
  lemma EmptyAllowListAcceptsAll(referer: string)
    ensures HasAllowedReferer("", referer)
  {
    assert Split("", ',') == [""];
    assert HasPrefix(referer, "");
  }

  /** For an allow-list written as comma-joined entries, a referer is
      accepted exactly when one of those entries is its prefix. */
  lemma AllowListOfEntries(entries: seq<string>, referer: string)
    requires |entries| >= 1
    requires forall i :: 0 <= i < |entries| ==> ',' !in entries[i]
    ensures HasAllowedReferer(Join(entries, ','), referer) <==>
            exists i :: 0 <= i < |entries| && HasPrefix(referer, entries[i])
  {
    SplitJoin(entries, ',');
  }

  /** True when some element of `roles` equals some element of `targets`. */
  function AnyRoleMatches(roles: seq<string>, targets: seq<string>): (r: bool)
    ensures r <==> exists i, j :: 0 <= i < |roles| && 0 <= j < |targets| && roles[i] == targets[j]
  {
    if |roles| == 0 then false
    else roles[0] in targets || AnyRoleMatches(roles[1..], targets)
  }

  /** `HasRole`: the request passes when the validated token has a `roles`
      claim one of whose comma-separated elements equals one of the target
      roles exactly (no trimming, case-sensitive); otherwise it is aborted. */
  function HasRole(payload: map<string, string>, targetRoles: seq<string>): (pass: bool)
    ensures pass ==> "roles" in payload
    ensures pass ==> exists i, j :: 0 <= i < |Split(payload["roles"], ',')| && 0 <= j < |targetRoles| &&
                                    Split(payload["roles"], ',')[i] == targetRoles[j]
    ensures "roles" in payload ==>
      (pass <== exists i, j :: 0 <= i < |Split(payload["roles"], ',')| && 0 <= j < |targetRoles| &&
                               Split(payload["roles"], ',')[i] == targetRoles[j])
  {
    "roles" in payload && AnyRoleMatches(Split(payload["roles"], ','), targetRoles)
  }

  /** For a `roles` claim written as comma-joined role names, the request
      passes exactly when one of those names is a target role. */
  lemma RolesClaimOfNames(payload: map<string, string>, names: seq<string>, targetRoles: seq<string>)
    requires |names| >= 1
    requires forall i :: 0 <= i < |names| ==> ',' !in names[i]
    requires "roles" in payload && payload["roles"] == Join(names, ',')
    ensures HasRole(payload, targetRoles) <==> exists i :: 0 <= i < |names| && names[i] in targetRoles
  {
    SplitJoin(names, ',');
  }

  /** Matching is exact: a role name padded with a space does not match. */
  lemma PaddedRoleDoesNotMatch()
    ensures !HasRole(map["roles" := "USER, ADMIN"], ["RESEARCHER", "ADMIN"])
  {
    var padded := ["USER", " ADMIN"];
    assert Join(padded[1..], ',') == " ADMIN";
    assert Join(padded, ',') == "USER, ADMIN";
    RolesClaimOfNames(map["roles" := "USER, ADMIN"], padded, ["RESEARCHER", "ADMIN"]);
  }

  /** The same claim without the space passes. */
  lemma ListedRoleMatches()
    ensures HasRole(map["roles" := "USER,ADMIN"], ["RESEARCHER", "ADMIN"])
  {
    var plain := ["USER", "ADMIN"];
    assert Join(plain[1..], ',') == "ADMIN";
    assert Join(plain, ',') == "USER,ADMIN";
    RolesClaimOfNames(map["roles" := "USER,ADMIN"], plain, ["RESEARCHER", "ADMIN"]);
    assert plain[1] in ["RESEARCHER", "ADMIN"];
  }

  const BearerPrefix: string := "Bearer "

  datatype TokenError = NoAuthorizationToken

  /** `ExtractToken`: takes the first `Authorization` header value and strips
      one leading `"Bearer "`; a missing header, an empty value list, or a
      token that is empty after stripping is rejected. */
  function ExtractToken(header: map<string, seq<string>>): (r: Result<string, TokenError>)
    ensures r.Ok? <==> "Authorization" in header && |header["Authorization"]| > 0 &&
                       header["Authorization"][0] != BearerPrefix && header["Authorization"][0] != ""
    ensures r.Ok? ==> |r.value| > 0
    ensures r.Ok? && HasPrefix(header["Authorization"][0], BearerPrefix) ==>
              BearerPrefix + r.value == header["Authorization"][0]
    ensures r.Ok? && !HasPrefix(header["Authorization"][0], BearerPrefix) ==>
              r.value == header["Authorization"][0]
  {
    if "Authorization" in header && |header["Authorization"]| > 0 then
      var token := TrimPrefix(header["Authorization"][0], BearerPrefix);
      if |token| == 0 then Err(NoAuthorizationToken) else Ok(token)
    else Err(NoAuthorizationToken)
  }

  /** Only one prefix is stripped: a doubled prefix leaves one behind. */
  lemma ExtractTokenStripsOnce()
    ensures ExtractToken(map["Authorization" := ["Bearer Bearer x"]]) == Ok("Bearer x")
  {
    var v := "Bearer Bearer x";
    assert v[..|BearerPrefix|] == BearerPrefix;
    assert v[|BearerPrefix|..] == "Bearer x";
  }
}

=== FILE: sampler.dfy ===
/** The slot sampler: a weekly step curve of how many self-test slots may
    have been handed out by each moment of the week, and the decisions read
    from it. The clock is a `now` parameter; the store's answers (the used
    count, the stored curve) are `Result` parameters. */
module Sampler {
  import opened Wrappers
  import opened Collections
  import opened Calendar

  /** From `t` seconds after the interval start, `value` slots are open. */
  datatype OpenSlots = OpenSlots(t: int, value: int)

  datatype SlotCurve = SlotCurve(intervalStart: int, openSlots: seq<OpenSlots>)

  /** The store handle of the source is not part of the value: its answers
      are passed to each operation. */
  datatype Sampler = Sampler(instanceId: string, slotCurve: SlotCurve)

  /** `k` is where the scan of `openSlotTargetNow` stops: every step up to
      `k` is due by `elapsed`, and the next one (if any) is not. */
  ghost predicate StopsAt(steps: seq<OpenSlots>, elapsed: int, k: int) {
    0 <= k < |steps| &&
    (forall j :: 0 <= j <= k ==> steps[j].t <= elapsed) &&
    (k + 1 == |steps| || steps[k + 1].t > elapsed)
  }

  /** The loop of `openSlotTargetNow`, continuing with `current` as the
      value remembered so far. */
  function ScanSteps(steps: seq<OpenSlots>, elapsed: int, current: int): (r: int)
    ensures |steps| == 0 || steps[0].t > elapsed ==> r == current
    ensures |steps| > 0 && steps[0].t <= elapsed ==>
              exists k :: StopsAt(steps, elapsed, k) && r == steps[k].value
  {
    if |steps| == 0 || steps[0].t > elapsed then current
    else
      var r := ScanSteps(steps[1..], elapsed, steps[0].value);
      assert exists k :: StopsAt(steps, elapsed, k) && r == steps[k].value by {
        if |steps| > 1 && steps[1].t <= elapsed {
          var k :| StopsAt(steps[1..], elapsed, k) && r == steps[1..][k].value;
          assert StopsAt(steps, elapsed, k + 1);
        } else {
          assert StopsAt(steps, elapsed, 0);
        }
      }
      r
  }

  /** `openSlotTargetNow`: 0 for a curve without steps; otherwise the value
      of the first step, replaced by each later step in turn until a step
      lies in the future. */
  function OpenSlotTargetNow(curve: SlotCurve, now: int): (r: int)
    ensures |curve.openSlots| == 0 ==> r == 0
    ensures |curve.openSlots| > 0 && curve.openSlots[0].t > now - curve.intervalStart ==>
              r == curve.openSlots[0].value
    ensures |curve.openSlots| > 0 && curve.openSlots[0].t <= now - curve.intervalStart ==>
              exists k :: StopsAt(curve.openSlots, now - curve.intervalStart, k) &&
                          r == curve.openSlots[k].value
  {
    if |curve.openSlots| < 1 then 0
    else ScanSteps(curve.openSlots, now - curve.intervalStart, curve.openSlots[0].value)
  }

  /** The step at which the scan stops, once the first step is due. */
  lemma ScanStop(curve: SlotCurve, now: int) returns (stop: int)
    requires |curve.openSlots| > 0 && curve.openSlots[0].t <= now - curve.intervalStart
    ensures StopsAt(curve.openSlots, now - curve.intervalStart, stop)
    ensures OpenSlotTargetNow(curve, now) == curve.openSlots[stop].value
  {
    var steps, elapsed := curve.openSlots, now - curve.intervalStart;
    assert steps[0].t <= elapsed;
    var target := OpenSlotTargetNow(curve, now);
    stop :| StopsAt(steps, elapsed, stop) && OpenSlotTargetNow(curve, now) == steps[stop].value;
  }

  predicate StrictlyIncreasingT(steps: seq<OpenSlots>) {
    forall i, j :: 0 <= i < j < |steps| ==> steps[i].t < steps[j].t
  }

  /** On a curve whose step times increase, the target is the value of the
      last step that is already due. */
  lemma TargetIsLastDueStep(curve: SlotCurve, now: int, k: int)
    requires StrictlyIncreasingT(curve.openSlots)
    requires 0 <= k < |curve.openSlots| && curve.openSlots[k].t <= now - curve.intervalStart
    requires forall j :: k < j < |curve.openSlots| ==> curve.openSlots[j].t > now - curve.intervalStart
    ensures OpenSlotTargetNow(curve, now) == curve.openSlots[k].value
  {
    var steps, elapsed := curve.openSlots, now - curve.intervalStart;
    assert steps[0].t <= elapsed by {
      if k > 0 {
        assert steps[0].t < steps[k].t;
      }
    }
    var stop := ScanStop(curve, now);
    assert StopsAt(steps, elapsed, stop);
    if stop < k {
      assert false;
    }
  }

  /** Before its first step is due, a curve already yields that step's
      value (not 0). */
  lemma TargetBeforeFirstStep(curve: SlotCurve, now: int)
    requires |curve.openSlots| > 0 && now - curve.intervalStart < curve.openSlots[0].t
    ensures OpenSlotTargetNow(curve, now) == curve.openSlots[0].value
  {
  }

  /** The worked example: steps at 0, one hour and two hours. */
  function ExampleSteps(): seq<OpenSlots> {
    [OpenSlots(0, 5), OpenSlots(3600, 8), OpenSlots(7200, 10)]
  }

  /** During the example's first hour the first step's value holds. */
  lemma ExampleCurveFirstHour(start: int)
    ensures OpenSlotTargetNow(SlotCurve(start, ExampleSteps()), start) == 5
    ensures OpenSlotTargetNow(SlotCurve(start, ExampleSteps()), start + 3599) == 5
  {
    var curve := SlotCurve(start, ExampleSteps());
    assert StrictlyIncreasingT(curve.openSlots);
    TargetIsLastDueStep(curve, start, 0);
    TargetIsLastDueStep(curve, start + 3599, 0);
  }

  /** From the example's second step on, the latest due step's value holds. */
  lemma ExampleCurveLater(start: int)
    ensures OpenSlotTargetNow(SlotCurve(start, ExampleSteps()), start + 3600) == 8
    ensures OpenSlotTargetNow(SlotCurve(start, ExampleSteps()), start + 10000) == 10
  {
    var curve := SlotCurve(start, ExampleSteps());
    assert StrictlyIncreasingT(curve.openSlots);
    TargetIsLastDueStep(curve, start + 3600, 1);
    TargetIsLastDueStep(curve, start + 10000, 2);
  }

  /** `getUsedSlotsCountNow`: the store's count of slots used since the
      interval start, or 0 when the store fails. */
  function UsedSlotsCountNow(used: Result<int, StoreError>): (n: int)
    ensures used.Ok? ==> n == used.value
    ensures used.Err? ==> n == 0
  {
    match used
    case Ok(count) => count
    case Err(_) => 0
  }

  /** `HasAvailableFreeSlots`: a slot is free when the target exceeds the
      used count. `used` is the store's answer to the count of slots used
      since the curve's interval start. */
  function HasAvailableFreeSlots(s: Sampler, now: int, used: Result<int, StoreError>): (free: bool)
    ensures used.Ok? ==> (free <==> used.value < OpenSlotTargetNow(s.slotCurve, now))
    ensures used.Err? ==> (free <==> OpenSlotTargetNow(s.slotCurve, now) > 0)
  {
    OpenSlotTargetNow(s.slotCurve, now) - UsedSlotsCountNow(used) > 0
  }

  /** A sampler whose curve has no steps offers no slot, unless the store
      reports a negative count. */
  lemma EmptyCurveOffersNothing(s: Sampler, now: int, used: Result<int, StoreError>)
    requires |s.slotCurve.openSlots| == 0
    requires used.Ok? ==> used.value >= 0
    ensures !HasAvailableFreeSlots(s, now, used)
  {
  }

  /** Fail open: when the store cannot count, every slot of the target is
      treated as free. */
  lemma StoreFailureFailsOpen(s: Sampler, now: int, e: StoreError)
    ensures HasAvailableFreeSlots(s, now, Err(e)) == HasAvailableFreeSlots(s, now, Ok(0))
  {
  }

  /** Using up slots never frees one. */
  lemma MoreUsedNeverFrees(s: Sampler, now: int, a: int, b: int)
    requires a <= b
    ensures HasAvailableFreeSlots(s, now, Ok(b)) ==> HasAvailableFreeSlots(s, now, Ok(a))
  {
  }

  /** `LoadSlotCurveFromDB`: adopt the stored curve, or keep the current one
      when loading fails. */
  function LoadSlotCurveFromDB(s: Sampler, loaded: Result<SlotCurve, StoreError>): (r: Sampler)
    ensures r.instanceId == s.instanceId
    ensures loaded.Ok? ==> r.slotCurve == loaded.value
    ensures loaded.Err? ==> r == s
  {
    match loaded
    case Ok(curve) => s.(slotCurve := curve)
    case Err(_) => s
  }

  /** After a load, every later answer is the loaded curve's, whatever
      curve the sampler held before; a failed load changes no answer. */
  lemma LoadDecidesLaterAnswers(s: Sampler, other: Sampler, c: SlotCurve, e: StoreError, now: int, used: Result<int, StoreError>, isoWeek: int -> IsoWeek)
    requires s.instanceId == other.instanceId
    ensures LoadSlotCurveFromDB(s, Ok(c)) == LoadSlotCurveFromDB(other, Ok(c))
    ensures HasAvailableFreeSlots(LoadSlotCurveFromDB(s, Ok(c)), now, used) ==
            HasAvailableFreeSlots(Sampler(s.instanceId, c), now, used)
    ensures NeedsRefresh(LoadSlotCurveFromDB(s, Ok(c)).slotCurve, now, isoWeek) == NeedsRefresh(c, now, isoWeek)
    ensures HasAvailableFreeSlots(LoadSlotCurveFromDB(s, Err(e)), now, used) == HasAvailableFreeSlots(s, now, used)
  {
  }

  /** `NeedsRefresh`: the curve is stale once `now` falls in another ISO
      (year, week) than its interval start. */
  function NeedsRefresh(curve: SlotCurve, now: int, isoWeek: int -> IsoWeek): (stale: bool)
    ensures stale <==> isoWeek(curve.intervalStart).year != isoWeek(now).year ||
                       isoWeek(curve.intervalStart).week != isoWeek(now).week
  {
    var start, current := isoWeek(curve.intervalStart), isoWeek(now);
    current.year != start.year || start.week != current.week
  }

  /** With a true ISO-week labelling, a curve is stale exactly when `now`
      lies in another Monday-started week than the interval start. */
  lemma NeedsRefreshIffOtherWeek(curve: SlotCurve, now: int, isoWeek: int -> IsoWeek)
    requires IsIsoWeekLabelling(isoWeek)
    ensures NeedsRefresh(curve, now, isoWeek) <==>
            WeekIndex(DayOf(curve.intervalStart)) != WeekIndex(DayOf(now))
  {
    assert isoWeek(curve.intervalStart) == isoWeek(now) <==>
           WeekIndex(DayOf(curve.intervalStart)) == WeekIndex(DayOf(now));
  }

  /** A curve started this week (as a rebuild does) is fresh for the rest
      of the week, and stale from the following Monday on. */
  lemma CurveLastsOneWeek(curve: SlotCurve, built: int, now: int, isoWeek: int -> IsoWeek)
    requires IsIsoWeekLabelling(isoWeek)
    requires curve.intervalStart == StartOfTheWeek(built)
    ensures StartOfTheWeek(built) <= now < StartOfTheWeek(built) + 7 * SecondsPerDay ==>
              !NeedsRefresh(curve, now, isoWeek)
    ensures now >= StartOfTheWeek(built) + 7 * SecondsPerDay ==> NeedsRefresh(curve, now, isoWeek)
  {
    var start := StartOfTheWeek(built);
    NeedsRefreshIffOtherWeek(curve, now, isoWeek);
    if start <= now < start + 7 * SecondsPerDay {
      assert DayOf(start) <= DayOf(now) <= DayOf(start) + 6;
      assert DaysSinceMonday(DayOf(start)) == 0;
    }
    if now >= start + 7 * SecondsPerDay {
      WeekLaterIsNewWeek(start, now);
    }
  }
}

=== FILE: strings.dfy ===
/** The handful of Go `strings` package functions the service relies on,
    over `string` = `seq<char>`, where a `char` is a Unicode scalar value.
    Go's `len` counts the bytes of the UTF-8 encoding: `Utf8Length` models
    it where a length is compared with a number. */
module Strings {

  /** `strings.HasPrefix`. */
  predicate HasPrefix(s: string, prefix: string) {
    |prefix| <= |s| && s[..|prefix|] == prefix
  }

  /** Bytes of one character in UTF-8. */
  function Utf8Width(c: char): (w: nat)
    ensures 1 <= w <= 4
    ensures w == 1 <==> c as int < 0x80
  {
    if c as int < 0x80 then 1
    else if c as int < 0x800 then 2
    else if c as int < 0x10000 then 3
    else 4
  }

  /** Go's `len` of a string: the length of its UTF-8 encoding. */
  function Utf8Length(s: string): (n: nat)
    ensures |s| <= n <= 4 * |s|
  {
    if |s| == 0 then 0 else Utf8Width(s[0]) + Utf8Length(s[1..])
  }

  predicate IsAscii(s: string) {
    forall i :: 0 <= i < |s| ==> s[i] as int < 0x80
  }

  /** The byte length is the character count exactly for ASCII text. */
  lemma {:induction false} Utf8LengthIsCountIffAscii(s: string)
    ensures Utf8Length(s) == |s| <==> IsAscii(s)
  {
    if |s| > 0 {
      Utf8LengthIsCountIffAscii(s[1..]);
      assert IsAscii(s) <==> s[0] as int < 0x80 && IsAscii(s[1..]) by {
        if s[0] as int < 0x80 && IsAscii(s[1..]) {
          forall i | 0 <= i < |s| ensures s[i] as int < 0x80 {
            if i > 0 { assert s[i] == s[1..][i - 1]; }
          }
        }
        if IsAscii(s) {
          forall i | 0 <= i < |s[1..]| ensures s[1..][i] as int < 0x80 {
            assert s[1..][i] == s[i + 1];
          }
        }
      }
    }
  }

  /** `strings.TrimPrefix`: removes ONE leading occurrence of `prefix`. */
  function TrimPrefix(s: string, prefix: string): (r: string)
    ensures HasPrefix(s, prefix) ==> prefix + r == s
    ensures !HasPrefix(s, prefix) ==> r == s
  {
    if HasPrefix(s, prefix) then s[|prefix|..] else s
  }

  /** `sub` occurs in `s` starting at position `i`. */
  predicate OccursAt(s: string, sub: string, i: int) {
    0 <= i && i + |sub| <= |s| && s[i..i + |sub|] == sub
  }

  /** `strings.Contains`, scanning left to right like `strings.Index`. */
  predicate Contains(s: string, sub: string)
    decreases |s|
  {
    HasPrefix(s, sub) || (|s| > 0 && Contains(s[1..], sub))
  }

  /** The scan finds `sub` exactly when it occurs somewhere in `s`. */
  lemma {:induction false} ContainsIffOccurs(s: string, sub: string)
    ensures Contains(s, sub) <==> exists i :: OccursAt(s, sub, i)
    decreases |s|
  {
    if HasPrefix(s, sub) {
      assert OccursAt(s, sub, 0);
    } else if |s| > 0 {
      ContainsIffOccurs(s[1..], sub);
      if Contains(s[1..], sub) {
        var i :| OccursAt(s[1..], sub, i);
        assert s[1..][i..i + |sub|] == s[i + 1..i + 1 + |sub|];
        assert OccursAt(s, sub, i + 1);
      }
      if exists i :: OccursAt(s, sub, i) {
        var i :| OccursAt(s, sub, i);
        assert i != 0;
        assert s[1..][i - 1..i - 1 + |sub|] == s[i..i + |sub|];
        assert OccursAt(s[1..], sub, i - 1);
      }
    }
  }

  /** `strings.ReplaceAll(s, string(c), "")` for a one-byte `c`. */
  function RemoveChar(s: string, c: char): (r: string)
    ensures c !in r
    ensures |r| <= |s|
    ensures forall x :: x != c ==> (x in r <==> x in s)
  {
    if |s| == 0 then ""
    else (if s[0] == c then "" else [s[0]]) + RemoveChar(s[1..], c)
  }

  /** A string without `c` is left untouched by `RemoveChar`. */
  lemma {:induction false} RemoveAbsentChar(s: string, c: char)
    requires c !in s
    ensures RemoveChar(s, c) == s
  {
    if |s| > 0 {
      RemoveAbsentChar(s[1..], c);
      assert s == [s[0]] + s[1..];
    }
  }

  /** `RemoveChar` distributes over concatenation. */
  lemma {:induction false} RemoveCharAppend(a: string, b: string, c: char)
    ensures RemoveChar(a + b, c) == RemoveChar(a, c) + RemoveChar(b, c)
  {
    if |a| > 0 {
      RemoveCharAppend(a[1..], b, c);
      assert (a + b)[1..] == a[1..] + b;
      var h := if a[0] == c then "" else [a[0]];
      calc {
        RemoveChar(a + b, c);
        h + RemoveChar(a[1..] + b, c);
        h + (RemoveChar(a[1..], c) + RemoveChar(b, c));
        (h + RemoveChar(a[1..], c)) + RemoveChar(b, c);
      }
    } else {
      assert a + b == b;
    }
  }

  /** `strings.Split(s, string(sep))` for a one-byte separator: the pieces
      between consecutive separators; an empty string splits to `[""]`. */
  function Split(s: string, sep: char): (parts: seq<string>)
    ensures |parts| >= 1
    ensures forall i :: 0 <= i < |parts| ==> sep !in parts[i]
  {
    if |s| == 0 then [""]
    else
      var rest := Split(s[1..], sep);
      if s[0] == sep then [""] + rest
      else [[s[0]] + rest[0]] + rest[1..]
  }

  /** `strings.Join(parts, string(sep))`. */
  function Join(parts: seq<string>, sep: char): string {
    if |parts| == 0 then ""
    else if |parts| == 1 then parts[0]
    else parts[0] + [sep] + Join(parts[1..], sep)
  }

  /** Joining the pieces of a split gives the original string back. */
  lemma {:induction false} JoinSplit(s: string, sep: char)
    ensures Join(Split(s, sep), sep) == s
  {
    if |s| > 0 {
      var rest := Split(s[1..], sep);
      JoinSplit(s[1..], sep);
      if s[0] == sep {
        assert Split(s, sep)[1..] == rest;
      } else {
        var parts := Split(s, sep);
        if |rest| == 1 {
          assert parts == [[s[0]] + rest[0]];
        } else {
          assert parts[1..] == rest[1..];
          assert Join(rest, sep) == rest[0] + [sep] + Join(rest[1..], sep);
        }
      }
      assert s == [s[0]] + s[1..];
    }
  }

  /** A string without separators is a single piece. */
  lemma {:induction false} SplitNoSeparator(a: string, sep: char)
    requires sep !in a
    ensures Split(a, sep) == [a]
  {
    if |a| > 0 {
      SplitNoSeparator(a[1..], sep);
      assert a == [a[0]] + a[1..];
    }
  }

  /** A separator-free head followed by a separator splits off as one piece. */
  lemma {:induction false} SplitAfterPiece(a: string, sep: char, t: string)
    requires sep !in a
    ensures Split(a + [sep] + t, sep) == [a] + Split(t, sep)
  {
    var s := a + [sep] + t;
    if |a| == 0 {
      assert s[1..] == t;
    } else {
      assert s[1..] == a[1..] + [sep] + t;
      SplitAfterPiece(a[1..], sep, t);
      assert a == [a[0]] + a[1..];
    }
  }

  /** Splitting a join of separator-free pieces gives the pieces back. */
  lemma {:induction false} SplitJoin(parts: seq<string>, sep: char)
    requires |parts| >= 1
    requires forall i :: 0 <= i < |parts| ==> sep !in parts[i]
    ensures Split(Join(parts, sep), sep) == parts
  {
    if |parts| == 1 {
      SplitNoSeparator(parts[0], sep);
    } else {
      SplitJoin(parts[1..], sep);
      SplitAfterPiece(parts[0], sep, Join(parts[1..], sep));
      assert parts == [parts[0]] + parts[1..];
    }
  }
}

=== FILE: wrappers.dfy ===
/** Failure-compatible result types shared by every module of the model.
    Go's `(value, error)` pairs become `Result<T, E>`; a nil pointer or a
    missing map entry becomes `Option<T>`. */
module Wrappers {

  datatype Option<+T> = None | Some(value: T) {
    predicate IsFailure() {
      None?
    }

    function PropagateFailure<U>(): Option<U>
      requires None?
    {
      None
    }

    function Extract(): T
      requires Some?
    {
      value
    }
  }

  datatype Result<+T, +E> = Ok(value: T) | Err(error: E) {
    predicate IsFailure() {
      Err?
    }

    function PropagateFailure<U>(): Result<U, E>
      requires Err?
    {
      Err(error)
    }

    function Extract(): T
      requires Ok?
    {
      value
    }
  }
}
